=== FILE: README.md ===
# Resume screening pipeline — a Dafny model of its deterministic core

The system screens uploaded resumes for a job domain. Its pipeline runs in this order:

1. It anonymises the extracted text.
2. A trained classifier scores the text.
3. It matches the domain's skill list against the text, in either of two ways:
   - a case-insensitive substring test;
   - a lookup in a set of NLP tokens.
4. It infers behavioural traits and a project-orientation profile.
5. It assembles interview questions from a fixed question bank.
6. It can ask a language model for more questions. It extracts JSON from the reply and falls back to fixed questions on any failure.

This project models those deterministic parts as pure Dafny functions and proves properties about them. Each source component has its own module:

| file | module | models |
|---|---|---|
| `wrappers.dfy` | `Wrappers` | `Option` and `Result` |
| `text.dfy` | `Text` | the Python string operations the code relies on: `lower`, `in`, `startswith`, `find`/`rfind`, `strip`, `split()` word counting, `splitlines`, `join` |
| `skill_config.dfy` | `SkillConfig` | the ten domain skill lists and the question bank, with shape lemmas |
| `anonymizer.dfy` | `Anonymizer` | `anonymize_resume`: the phone scanner and the line pass |
| `insights.dfy` | `Insights` | trait inference and the project-orientation profile |
| `skill_match.dfy` | `SkillMatch` | the substring matcher, the token-set matcher and the rule score |
| `scorer.dfy` | `Scorer` | the blank-text guard and the first-argmax decision of `predict_score_and_label` |
| `inference.dfy` | `Inference` | bank questions, `generate_skill_based_questions` and `run_analysis` |
| `webapp.dfy` | `WebApp` | `allowed_file`, upload validation, course suggestions, profile-type resolution, question assembly and the analysis report of `analyze_resume` |
| `ai_questions.dfy` | `AiQuestions` | JSON extraction, the domain fallback, coercion, the top-up and the failure fallback of `generate_ai_questions` |

External services are parameters:
- the embedding model and the classifier are uninterpreted functions, and probabilities are reals;
- the NLP token set is a parameter;
- the language model is an oracle from request to `Option<string>`;
- JSON decoding is a partial function;
- the e-mail and title substitutions of the anonymiser are functions on strings.

## Model

| member | source | states |
|---|---|---|
| SkillConfig.DomainKeysExact | skill_config.py:1-75 | A domain has a skill list exactly when it is one of the ten keys of `DOMAIN_SKILLS`. |
| SkillConfig.DomainSkillsWellFormed | skill_config.py:3-73 | Every domain's skill list is free of repeats, all lower case, and contains neither "ml" nor "requirements". |
| SkillConfig.SoftwareEngineerDistinct | skill_config.py:3-7 | The software-engineering skill list has no repeated entry. |
| SkillConfig.SkillLowerIsIdentity | skill_config.py:3-74 | Lower-casing any domain skill gives the skill back, so `skill.lower()` lookups use the skill as written. |
| SkillConfig.BankWellFormed | skill_config.py:77-296 | Every key found in the question bank is lower case and maps to a non-empty list of questions. |
| SkillConfig.LookupFrom | skill_config.py:77-296 | A key lookup finds the key's entry, or reports that no entry has the key. |
| SkillConfig.BankKeysDistinct | skill_config.py:77-296 | No key is written twice in the `QUESTION_BANK` literal, so the dict keeps every entry as written. |
| SkillConfig.BankGetEntry | skill_config.py:77-296 | Indexing the bank by any key of the literal gives that entry's own question list. |
| SkillConfig.UnreachableBankKeys | skill_config.py:136 | The bank keys "ml" and "requirements" exist, but no domain skill lower-cases to either, so skill-driven lookups never reach them. |
| Text.Strip | anonymizer.py:39 | `strip()` returns a contiguous slice of the input with no whitespace at either end. |
| Text.StripBlank | model_inference.py:29 | `s.strip()` is empty exactly when every character of `s` is whitespace. |
| Text.SplitJoinLines | anonymizer.py:35-64 | Joining break-free lines with `\n` and splitting them again with `splitlines` gives the same lines back. |
| Text.Contains | app.py:94 | `sub in s` holds exactly when `sub` occurs at some position of `s`. |
| Text.FindFrom | ai_questions.py:30 | The search returns the first occurrence at or after the start position, or none when there is none. |
| Text.LastIndexOf | app.py:41 | `rfind` returns a position holding the character with none after it, or none when the character is absent. |
| Text.Lower | anonymizer.py:42 | `lower()` keeps the length and maps every character on its own, so lower-casing commutes with slicing and concatenation (`Text.LowerAppend`). |
| Text.WordCount | anonymizer.py:56 | `len(s.split())`: the number of maximal runs of non-whitespace characters. A single run counts one (`Text.WordCountOne`), two runs separated by a space count two (`Text.WordCountTwo`). |
| Text.SplitLines | anonymizer.py:35 | `splitlines()` yields lines without any line-break character; with `Text.SplitJoinLines` it inverts joining with `\n`. |
| Anonymizer.ReplacePhones | anonymizer.py:17 | After the phone pass the text contains no phone-shaped run: an optional `+`, a digit, at least eight digits/dashes/spaces, and a digit. A text without such a run is returned unchanged. |
| Anonymizer.PhoneSpan | anonymizer.py:17 | The pattern `\+?\d[\d\-\s]{8,}\d` matches the characters from a start position to an end position: an optional `+`, a digit, at least eight digits, dashes or whitespace, and a final digit. |
| Anonymizer.ReplacePhonesFrom | anonymizer.py:29 | `re.sub` scans left to right: at a match it emits `[PHONE]` and resumes after the match, otherwise it keeps the character and moves on by one. Its output is phone-free (`Anonymizer.ReplacePhonesFromFree`) and keeps phone-free input (`Anonymizer.ReplacePhonesFromIdentity`). |
| Anonymizer.ReplacePhonesFromFree | anonymizer.py:29 | The scan from any position leaves no phone-shaped run in its output. |
| Anonymizer.PhoneMatch | anonymizer.py:17 | A match at a position is the longest phone-shaped run starting there (greedy with backtracking to the last digit); no match means no run starts there. |
| Anonymizer.Anonymize | anonymizer.py:21-23 | Empty input is returned unchanged. |
| Anonymizer.AnonymizedLines | anonymizer.py:26-64 | For non-empty text whose last rewritten line is not empty, the result's lines are the line pass applied to the lines of the text after the e-mail, phone and title passes, in that order. (`splitlines` drops a trailing empty line, so the condition is needed.) |
| Anonymizer.AnonymizedLinesStable | anonymizer.py:35-64 | Under the same condition, the line pass leaves the anonymised text's lines unchanged. |
| Anonymizer.LinePass | anonymizer.py:35-64 | The line pass yields exactly one output line per input line, each rewritten by its own index. |
| Anonymizer.Classify | anonymizer.py:39-62 | The rules apply in source order on the stripped, lower-cased line: a name prefix, then a date-of-birth prefix, then an address prefix, then (at index 0 to 3 only) a short line with a letter and no digit; any other line is kept. |
| Anonymizer.ClassifiedName | anonymizer.py:43-45 | A line whose stripped, lower-cased form starts with "name:" is a name line, whatever its index and whatever else it contains. |
| Anonymizer.RewriteLine | anonymizer.py:38-62 | A kept line is emitted verbatim. A replaced line becomes a placeholder that the same rule classifies the same way. |
| Anonymizer.CandidateOnlyEarly | anonymizer.py:56 | Only lines at index 0 to 3 can be taken for the candidate's name. |
| Anonymizer.PlaceholderReclassified | anonymizer.py:43-60 | Each placeholder line re-triggers the rule that produced it. |
| Anonymizer.MidLineKeywordKept | anonymizer.py:62 | After the first four lines, a line whose stripped lower-cased form does not start with a keyword letter is kept verbatim, even if a keyword occurs later in it. |
| Anonymizer.LinePassIdempotent | anonymizer.py:38-64 | Running the line pass on its own output changes nothing. |
| Anonymizer.LinePassRoundTrip | anonymizer.py:64 | The rewritten lines, joined with `\n`, split back into the same lines. |
| Insights.InferTraits | insights_engine.py:21-30 | A trait is reported exactly when one of its keywords is a substring of the lower-cased text. Traits appear once each, in declaration order. |
| Insights.CollaboratedSharedByTwoTraits | insights_engine.py:5-7 | "collaborated" yields both communication and teamwork: traits are not exclusive. |
| Insights.TraitsSurviveExtension | insights_engine.py:26-28 | Adding text before or after a resume never removes a trait. |
| Insights.CountPresentIsCardinality | insights_engine.py:36 | The indicator count equals the number of distinct indicator words present. |
| Insights.DetectProfile | insights_engine.py:32-43 | Three or more distinct indicators give project_oriented. None gives theoretical. Otherwise the result is balanced. |
| Insights.ProfileMonotone | insights_engine.py:36-43 | Adding text around a resume never makes its profile less project-oriented. |
| Insights.ThreeIndicatorsSuffice | insights_engine.py:38-39 | Any three different indicators in the text make the profile project_oriented. |
| SkillMatch.Split | app.py:90-99 | The found and missing lists partition the input as a multiset. Each is an order-preserving subsequence, and membership is decided by the predicate. |
| SkillMatch.DetectSkills | app.py:82-99 | A domain skill is found exactly when it occurs in the lower-cased text, and missing otherwise. Both lists keep the domain's order. An unknown domain gives two empty lists. |
| SkillMatch.DetectSkillsLoop | model_inference.py:45-58 | The inference layer's loop computes exactly the web application's split. |
| SkillMatch.RuleScore | model_inference.py:95-96 | The rule score lies in [0, 1] and times the skill total equals the number found. It is 0 with no skills and 1 when none is missing. |
| SkillMatch.DetectSkillsNlp | nlp_engine.py:26-46 | A skill is found exactly when its lower-cased form, with or without spaces, is a token (membership, not substring). Found and missing partition the list, in order. |
| SkillMatch.SingleWordVariant | nlp_engine.py:36-39 | A skill without spaces has a single spelling. |
| SkillMatch.NlpMonotoneInTokens | nlp_engine.py:41 | A larger token set never turns a found skill into a missing one. |
| Scorer.FirstArgMax | model_inference.py:37 | The chosen index holds the largest probability, and no earlier index holds as large a one. |
| Scorer.FirstMaxUnique | model_inference.py:37 | There is only one first maximum. |
| Scorer.Predict | model_inference.py:22-41 | A blank text gives (0.0, "rejected", []) without the models. Otherwise the probabilities come from the classifier, and the label and score are those of the first most probable class. |
| Scorer.ScoreIsMaximal | model_inference.py:39 | The score is no smaller than any class probability. |
| Scorer.BlankIgnoresModels | model_inference.py:29-31 | Any two classifiers agree on a blank text. |
| Scorer.TwoClassScoreAtLeastHalf | model_inference.py:36-39 | With two classes whose probabilities sum to one, the score is at least one half. |
| Inference.Summary | model_inference.py:104-114 | The summary line is the fixed text when there are no items. Otherwise it starts with the prefix and contains every item. |
| Inference.BankQuestions | model_inference.py:64-67 | The bank entries of the skills' lower-cased names, concatenated in skill order; skills without an entry add nothing. The web application's loop at app.py:357-359 computes the same list. |
| Inference.BankQuestionsAppend | model_inference.py:64-67 | The bank questions of a concatenated skill list are those of its parts, in order. |
| Inference.BankQuestionsEmpty | model_inference.py:64-69 | No bank question is collected exactly when no skill has a bank entry. |
| Inference.GenerateSkillBasedQuestions | model_inference.py:61-76 | The result is never empty. It is the bank questions when there are any, and the three fixed questions otherwise. |
| Inference.SummaryLine | model_inference.py:104-114 | One line: the fixed text when there are no items, otherwise a line starting with the prefix that names every item. |
| Inference.RunAnalysis | model_inference.py:78-138 | The record carries the skill split of the text and the rule score of that split. Its blend is the mean of the classifier score and the rule score. `selected` holds exactly when the label is "selected". There is one strength line and one improvement line. The strength line is "No strong domain-specific skills detected." when no skill is found, and otherwise starts with "You already know: " and names every found skill. The improvement line is "You covered major skills for this domain!" when no skill is missing, and otherwise starts with "Improve in: " and names every missing skill. The questions are `generate_skill_based_questions` of the found skills. |
| Inference.BlendedScoreInUnitRange | model_inference.py:99 | With probabilities in [0, 1], the blended score lies in [0, 1]. |
| WebApp.ExtensionAfterLastDot | app.py:41 | The extension is the text after the last dot, however many dots precede it. |
| WebApp.AllowedFile | app.py:40-41 | An allowed name has a dot, and the text after its last dot, lower-cased, is pdf, doc or docx. |
| WebApp.AllowedFileByExtension | app.py:40-41 | `stem.ext` is allowed exactly when `ext` lower-cases to an allowed extension. |
| WebApp.LastExtensionDecides | app.py:41 | `x.pdf.exe` is refused. |
| WebApp.ValidateUpload | app.py:153-160 | The request passes exactly when there is a named file with an allowed name and a non-empty domain. Otherwise the first failing check's 400 error is returned, in the order file, type, domain. |
| WebApp.ProfileFor | app.py:182-311 | A listed domain gets its own suggestions and any other domain the generic ones. Suggestions are never empty. |
| WebApp.DomainProfile | app.py:183-303 | The suggestion table has entries for exactly the ten keys of `WebApp.ProfileKeys`, each with its own literal courses and projects (`WebApp.DomainProfileKeys`, `WebApp.DomainProfileShape`). |
| WebApp.DomainProfileShape | app.py:183-303 | Every listed domain has three courses and two projects. |
| WebApp.ProfileAndSkillKeysDiffer | skill_config.py:33-69 | The skill table says ui_ux_design and hr_talent_acquisition where the suggestion table says ui_ux and hr_talent. |
| WebApp.DesignDomainGetsGenericProfile | app.py:305-311 | The skill table's design key has skills but gets only the generic suggestions. |
| WebApp.DesignProfileKeyGetsNoSkills | app.py:88 | The suggestion table's design key has suggestions but no skills to find or miss. |
| WebApp.CallDetectProfile | insights_engine.py:32 | The detector takes the text alone: any extra argument raises TypeError. |
| WebApp.ResolveProfileType | app.py:325-333 | The two-argument call always fails with TypeError, and the retry yields the profile detected from the text. |
| WebApp.ProfileQuestionsAsWritten | app.py:362-368 | As written, the theory question is asked only for the name "theory_oriented". |
| WebApp.TheoryQuestionNeverAskedAsWritten | app.py:367 | No detected profile is named "theory_oriented", so as written the theory question is never asked and a theoretical resume gets no profile question. |
| WebApp.ProfileQuestions | app.py:362-368 | With the correction, every profile gets a question, and the theoretical profile gets the theory question. |
| WebApp.ProfileQuestionsAgreeOtherwise | app.py:362-366 | The correction changes nothing for the other two profiles. |
| WebApp.TraitQuestions | app.py:371-378 | Each trait question is asked exactly when some trait name, lower-cased, is its key. The problem-solving question accepts both spellings. |
| WebApp.TraitQuestionsOfTraits | app.py:371-378 | For inferred traits, each question is asked exactly when its trait is present. The hyphenated spelling never occurs. |
| WebApp.QuestionsFrom | app.py:354-386 | The list is never empty. When anything is asked it is the bank questions, then the profile questions, then the trait questions. With no bank entry, no profile question and no trait question it is the three fixed questions. |
| WebApp.AssembleQuestions | app.py:354-386 | The endpoint's list as written. A theoretical profile contributes no question. For the other profiles the list equals the corrected one. Every trait question is included, and the list is never empty. |
| WebApp.AssembleQuestionsCorrected | app.py:354-386 | The list with the theory question corrected. With a profile it is never the generic fallback: it is the bank questions, the profile's questions and the trait questions, in that order. |
| WebApp.TheoreticalAloneFallsBack | app.py:362-386 | With no bank question and no trait, a theoretical profile gets the three generic questions as written, and only the theory question once corrected. |
| WebApp.BuildReport | app.py:171-409 | The report as the endpoint builds it. It carries the skill split, the classifier's score and label, `selected` exactly when the label is "selected", and the profile detected from the text. It also carries the inferred trait names and the domain's suggestions. Its probability vector is the classifier's. It has one strength line and one improvement line. The strength line is "No domain matching skills detected yet." when no skill is found, and otherwise starts with "You already know: " and names every found skill. The improvement line is "You covered all skills for this domain!" when no skill is missing, and otherwise starts with "Improve in: " and names every missing skill. Its questions are those assembled as written from its found skills, profile and traits. |
| WebApp.BlankResumeRejected | model_inference.py:29-31 | A blank resume is reported with score 0, label "rejected", and not selected. |
| WebApp.BuildReportCorrected | app.py:354-386 | The report with the corrected question list: every other field equals the endpoint's report. |
| WebApp.EveryProfileAsked | app.py:367 | With the correction, every report contains the questions of its profile, and a theoretical resume gets the theory question. |
| WebApp.CorrectionOnlyTheoretical | app.py:362-366 | For a resume that is not theoretical, the corrected report equals the endpoint's report. |
| WebApp.TheoreticalReportQuestions | app.py:362-386 | A theoretical resume with no found skill and no trait gets the three generic questions as written, and only the theory question once corrected. |
| WebApp.AnalyzeResume | app.py:139-171 | A failed validation is returned unchanged. Otherwise the result is the endpoint's report, as written, built from the anonymised text for the requested domain. |
| AiQuestions.FenceSpan | ai_questions.py:30 | The span starts at the first case-insensitive "```json" and ends at the first fence after it. None means no fence follows any opener. |
| AiQuestions.BraceSpan | ai_questions.py:36 | The span runs from the first `{` to the last `}`. None means no `{` precedes a `}`. |
| AiQuestions.ParseJsonFromContent | ai_questions.py:16-42 | Decoding tries the stripped reply, then the first fenced block, then the brace span. A present fenced block decides the outcome, and "no JSON found" happens exactly when all three are absent. |
| AiQuestions.FencedFailureIsFinal | ai_questions.py:30-33 | A fenced block that does not decode is an error, even when the brace span would decode. |
| AiQuestions.ParsedFromCandidate | ai_questions.py:21-39 | Any success is the decoding of one of the three candidate texts. |
| AiQuestions.FallbackQuestions | ai_questions.py:45-78 | The result is always five distinct questions. The lower-cased domain is searched for "data", then "web", then "software"; when none occurs, the generic list is used. |
| AiQuestions.NoDomainIsGeneric | ai_questions.py:46 | A missing domain gets the generic questions. |
| AiQuestions.EffectiveDomain | ai_questions.py:88 | A non-empty domain is kept; a missing one becomes "general". |
| AiQuestions.GeneralDomainIsGeneric | ai_questions.py:88 | The default domain "general" mentions none of "data", "web" and "software", so it selects the generic fallback questions. |
| AiQuestions.Coerce | ai_questions.py:141-144 | A list is kept as is; any other value becomes a one-element list of its string form. |
| AiQuestions.TopUp | ai_questions.py:147-154 | A list of five or more is unchanged. A shorter one grows to exactly five, keeping the original as a prefix. Each appended question comes from the fallback, is new, and is appended once. |
| AiQuestions.BuildRequest | ai_questions.py:87-88 | The excerpt is a prefix of the resume of at most 4000 characters, and the whole resume when it is shorter. A non-empty domain is kept, and a missing one becomes "general". |
| AiQuestions.GenerateAiQuestions | ai_questions.py:81-167 | There are always at least five questions. Any failure gives the domain fallback and the three tips, and with no domain the generic fallback. On success the model's lists are coerced and its questions form a prefix of the result: five or more are kept unchanged, fewer are topped up to exactly five, and every added question is a domain-fallback question the model did not already ask. |

## Left out

- HTTP handling, file saving, `secure_filename`, identifiers, the in-memory store and database persistence: I/O and framework state. The upload's text extraction is a parameter of `WebApp.AnalyzeResume`.
- Offline training and the internals of the embedding model and classifier: they are uninterpreted functions.
- The NLP tokenizer (spaCy and stop words): the token set is a parameter.
- The HTTP call to the language model and its timeout: it is an oracle returning `Option<string>`, and a missing reply stands for every transport failure.
- Prompt wording other than the 4000-character excerpt and the domain default.
- The JSON grammar: decoding is an abstract partial function, and `str()` of a non-string value is an abstract `show` function.
- Anonymizer.Substitute: the e-mail and title regular expressions are abstract substitutions. Only the phone pattern is modelled, as a scanner.
- Case mapping covers ASCII letters only, for `lower()`, `isalpha()` and `IGNORECASE`. Non-ASCII letters keep their case and do not count as letters in the name rule.
- Text.IsDigit: only the ASCII digits 0 to 9 count as digits. Python's `\d` in the phone pattern and `str.isdigit` in the name rule also accept other Unicode digits, and `isdigit` accepts superscripts too. So a phone number written in, for example, Devanagari digits is kept by the model, and a short early line whose only digit is a superscript is taken for a name. Unicode digit classes are not modelled.
- Inference.RunAnalysis: the blended score is not rounded to two decimals, and neither is the report score of `WebApp.BuildReport`. The claim is stated on the exact mean, with no floating point.
- Logging with `print`.
- The exception handler around trait inference (app.py:321-323): trait inference cannot fail in the model.
- The "other exception" branch of the profile-type resolution: the detector cannot fail on one argument. The `None` outcome is modelled but never produced.
- Scorer.Predict: the label list is assumed to have one entry per class probability (`Classifier.Valid`), as the trained classifier guarantees.

The two modules that produce analyses differ, and each is modelled as written:
- the web application's strength and improvement texts differ from the inference layer's ("No domain matching skills detected yet." and "You covered all skills for this domain!" against "No strong domain-specific skills detected." and "You covered major skills for this domain!"), and each module uses its own;
- `generate_skill_based_questions` skips an empty bank entry and the web application extends by it; since no bank entry is empty (`SkillConfig.BankWellFormed`), both compute `Inference.BankQuestions`.

The endpoint's report (`WebApp.BuildReport`, used by `WebApp.AnalyzeResume`) keeps the theory-question defect described under Findings. The correction is applied only in the separately named `WebApp.ProfileQuestions`, `WebApp.AssembleQuestionsCorrected` and `WebApp.BuildReportCorrected`.

## Findings

| source | as written | input that shows it | evidently intended | confidence | as-written member | corrected member |
|---|---|---|---|---|---|---|
| app.py:367 | the theory question is asked when the profile type equals "theory_oriented", a name the detector never returns (insights_engine.py:43 returns "theoretical") | any resume with none of the six project indicators, e.g. "Studied algorithms." | a theoretical resume gets "You seem theory-strong — how do you plan to build real projects?" | not executed | WebApp.ProfileQuestionsAsWritten, with WebApp.TheoryQuestionNeverAskedAsWritten and WebApp.TheoreticalReportQuestions | WebApp.ProfileQuestions, with WebApp.BuildReportCorrected, WebApp.EveryProfileAsked and WebApp.CorrectionOnlyTheoretical |

=== FILE: ai_questions.dfy ===
/**
 The recovery logic of the interview-question synthesizer.  A language model is
 asked for a JSON object with "questions" and "improvements"; its reply is
 searched for JSON in three stages, non-list values are wrapped, the question
 list is topped up to five from a domain-keyed fallback, and any failure falls
 back to that list plus three fixed tips.  The HTTP exchange is an oracle from
 request to optional reply text, and JSON decoding is a partial function.
 */
module AiQuestions {
  import opened Wrappers
  import opened Text

  // ---------------------------------------------------------------------------
  // JSON values and extraction
  // ---------------------------------------------------------------------------

  /** A decoded JSON value; numbers, booleans and null are kept as their text. */
  datatype Value = Str(s: string) | Arr(items: seq<Value>) | Obj(fields: map<string, Value>) | Other(repr: string)

  /** Why `_parse_json_from_content` raised. */
  datatype ParseError =
    | InvalidJson    // the chosen candidate text is not JSON
    | NoJsonFound    // no candidate text at all

  const Opener: string := "```json"
  const Fence: string := "```"

  /**
   The first match of the fenced-block pattern (non-greedy, case-insensitive,
   `.` matching newlines): the index of the first opener, in either case, and
   of the first fence after it.
   */
  function FenceSpan(s: string): (r: Option<(nat, nat)>)
    ensures r.Some? ==> OccursAt(Lower(s), Opener, r.value.0)
    ensures r.Some? ==> r.value.0 + |Opener| <= r.value.1 && OccursAt(s, Fence, r.value.1)
    ensures r.Some? ==> forall k :: 0 <= k < r.value.0 ==> !OccursAt(Lower(s), Opener, k)
    ensures r.Some? ==> forall k :: r.value.0 + |Opener| <= k < r.value.1 ==> !OccursAt(s, Fence, k)
    ensures r.None? ==> forall i, j :: OccursAt(Lower(s), Opener, i) && i + |Opener| <= j ==> !OccursAt(s, Fence, j)
  {
    match FindFrom(Lower(s), Opener, 0)
    case None => None
    case Some(i) =>
      match FindFrom(s, Fence, i + |Opener|)
      case None => None
      case Some(j) => Some((i, j))
  }

  /**
   The match of `\{.*\}` (greedy, `.` matching newlines): from the first `{`
   to the last `}`, when that `}` comes after the `{`.
   */
  function BraceSpan(s: string): (r: Option<(nat, nat)>)
    ensures r.Some? ==> r.value.0 < r.value.1 < |s| && s[r.value.0] == '{' && s[r.value.1] == '}'
    ensures r.Some? ==> '{' !in s[..r.value.0] && '}' !in s[r.value.1 + 1..]
    ensures r.None? ==> forall i, j :: 0 <= i < j < |s| && s[i] == '{' ==> s[j] != '}'
  {
    match (IndexOf(s, '{'), LastIndexOf(s, '}'))
    case (Some(i), Some(j)) =>
      if i < j then Some((i, j))
      else
        assert forall a, b :: 0 <= a < b < |s| && s[a] == '{' ==> s[b] != '}' by {
          forall a, b | 0 <= a < b < |s| && s[a] == '{' ensures s[b] != '}' {
            assert j < b ==> s[j + 1..][b - j - 1] == s[b];
          }
        }
        None
    case (None, _) =>
      assert forall a :: 0 <= a < |s| ==> s[a] != '{';
      None
    case (_, None) =>
      assert forall b :: 0 <= b < |s| ==> s[b] != '}';
      None
  }

  /** `json.loads(text)`, which raises on malformed input. */
  function Decode(parse: string -> Option<Value>, text: string): (r: Result<Value, ParseError>)
    ensures r.Success? <==> parse(text).Some?
    ensures r.Success? ==> r.value == parse(text).value
    ensures r.Failure? ==> r.error == InvalidJson
  {
    match parse(text)
    case Some(v) => Success(v)
    case None => Failure(InvalidJson)
  }

  /** The text between the first opener and the fence after it, stripped. */
  function FenceBlock(s: string, span: (nat, nat)): string
    requires span.0 + |Opener| <= span.1 <= |s|
  {
    Strip(s[span.0 + |Opener|..span.1])
  }

  /** The text from the first `{` to the last `}`, both included. */
  function BraceBlock(s: string, span: (nat, nat)): string
    requires span.0 <= span.1 < |s|
  {
    s[span.0..span.1 + 1]
  }

  /**
   `_parse_json_from_content(content)`: the stripped reply, else the first
   fenced block, else the brace span.  A fenced block that does not decode is
   an error at once: the brace stage is tried only when there is no fenced block.
   */
  function ParseJsonFromContent(content: string, parse: string -> Option<Value>): (r: Result<Value, ParseError>)
    ensures var s := Strip(content);
            parse(s).Some? ==> r == Success(parse(s).value)
    ensures var s := Strip(content);
            parse(s).None? && FenceSpan(s).Some? ==> r == Decode(parse, FenceBlock(s, FenceSpan(s).value))
    ensures var s := Strip(content);
            parse(s).None? && FenceSpan(s).None? && BraceSpan(s).Some? ==> r == Decode(parse, BraceBlock(s, BraceSpan(s).value))
    ensures r == Failure(NoJsonFound) <==>
            var s := Strip(content); parse(s).None? && FenceSpan(s).None? && BraceSpan(s).None?
  {
    var s := Strip(content);
    match parse(s)
    case Some(v) => Success(v)
    case None =>
      match FenceSpan(s)
      case Some(span) => Decode(parse, FenceBlock(s, span))
      case None =>
        match BraceSpan(s)
        case Some(span) => Decode(parse, BraceBlock(s, span))
        case None => Failure(NoJsonFound)
  }

  /**
   A fenced block that fails to decode ends the search, even when the brace
   span of the same reply would decode.
   */
  lemma FencedFailureIsFinal(content: string, parse: string -> Option<Value>)
    requires var s := Strip(content);
             parse(s).None? && FenceSpan(s).Some? && parse(FenceBlock(s, FenceSpan(s).value)).None?
    ensures ParseJsonFromContent(content, parse) == Failure(InvalidJson)
  {
  }

  /** Whatever the reply, a success is the decoding of one of the three candidate texts. */
  lemma ParsedFromCandidate(content: string, parse: string -> Option<Value>)
    requires ParseJsonFromContent(content, parse).Success?
    ensures var s := Strip(content);
            var v := ParseJsonFromContent(content, parse).value;
            || parse(s) == Some(v)
            || (FenceSpan(s).Some? && parse(FenceBlock(s, FenceSpan(s).value)) == Some(v))
            || (BraceSpan(s).Some? && parse(BraceBlock(s, BraceSpan(s).value)) == Some(v))
  {
  }

  // ---------------------------------------------------------------------------
  // Domain fallback
  // ---------------------------------------------------------------------------

  const DataFallback: seq<string> := [
    "Explain one data project from your resume in detail.",
    "How did you handle missing values in your dataset?",
    "Which evaluation metric did you use and why?",
    "Describe a time when your model did not work as expected.",
    "How do you decide which features are important?"]

  const WebFallback: seq<string> := [
    "Walk me through one web app you built.",
    "How did you handle authentication and authorization?",
    "What performance optimisations did you implement?",
    "Explain a layout or responsiveness issue you solved.",
    "How did you connect frontend and backend?"]

  const SoftwareFallback: seq<string> := [
    "Describe the architecture of one software project you worked on.",
    "How did you manage version control and branching?",
    "Explain a bug that was hard to debug and how you fixed it.",
    "How do you ensure code quality in your projects?",
    "What design patterns have you used?"]

  const GenericFallback: seq<string> := [
    "Tell me about one project from your resume in detail.",
    "Which skill from your resume do you want to improve first, and why?",
    "Describe a situation where you faced a difficult technical challenge.",
    "How do you usually learn a new technology?",
    "Tell me about a time you worked in a team."]

  /** The tips returned whenever the model cannot be used. */
  const FallbackTips: seq<string> := [
    "Add more measurable impact to your project descriptions.",
    "Include links to GitHub or live demos wherever possible.",
    "Focus on strengthening 1–2 core skills instead of many shallow ones."]

  lemma FallbackListsDistinct()
    ensures Distinct(DataFallback) && Distinct(WebFallback)
    ensures Distinct(SoftwareFallback) && Distinct(GenericFallback)
  {
  }

  /**
   `_domain_fallback_questions(domain)`: five different questions for every
   domain, None included; a lower-cased domain mentioning "data" wins over
   "web", which wins over "software"; anything else gets the generic list.
   */
  function FallbackQuestions(domain: Option<string>): (r: seq<string>)
    ensures |r| == 5 && Distinct(r)
    ensures var d := Lower(domain.GetOr("")); Contains(d, "data") ==> r == DataFallback
    ensures var d := Lower(domain.GetOr("")); !Contains(d, "data") && Contains(d, "web") ==> r == WebFallback
    ensures var d := Lower(domain.GetOr(""));
            !Contains(d, "data") && !Contains(d, "web") && Contains(d, "software") ==> r == SoftwareFallback
    ensures var d := Lower(domain.GetOr(""));
            !Contains(d, "data") && !Contains(d, "web") && !Contains(d, "software") ==> r == GenericFallback
  {
    FallbackListsDistinct();
    var d := Lower(domain.GetOr(""));
    if Contains(d, "data") then DataFallback
    else if Contains(d, "web") then WebFallback
    else if Contains(d, "software") then SoftwareFallback
    else GenericFallback
  }

  /** Without a domain the generic questions are used. */
  lemma NoDomainIsGeneric()
    ensures FallbackQuestions(None) == GenericFallback
  {
    var e: string := [];
    assert Lower(e) == e;
    assert !Contains(e, "data") && !Contains(e, "web") && !Contains(e, "software");
  }

  /** The default domain "general" mentions none of the keywords, so it gets the generic questions. */
  lemma GeneralDomainIsGeneric()
    ensures FallbackQuestions(Some("general")) == GenericFallback
  {
    var g: string := "general";
    LowerOfLowercase(g);
    NotContainsByFirstChar(g, "data");
    NotContainsByFirstChar(g, "web");
    NotContainsByFirstChar(g, "software");
  }

  /** Strings as JSON string values. */
  function AsValues(xs: seq<string>): (r: seq<Value>)
    ensures |r| == |xs|
    ensures forall k :: 0 <= k < |xs| ==> r[k] == Str(xs[k])
  {
    seq(|xs|, k requires 0 <= k < |xs| => Str(xs[k]))
  }

  // ---------------------------------------------------------------------------
  // Post-processing of the model's answer
  // ---------------------------------------------------------------------------

  /** `parsed.get(key, [])`. */
  function Field(fields: map<string, Value>, key: string): Value {
    if key in fields then fields[key] else Arr([])
  }

  /**
   A list is kept as it is; any other value becomes a one-element list holding
   `str(value)` (the string itself for a string; `show` gives the text of the rest).
   */
  function Coerce(v: Value, show: Value -> string): (r: seq<Value>)
    ensures v.Arr? ==> r == v.items
    ensures !v.Arr? ==> |r| == 1 && r[0].Str?
    ensures v.Str? ==> r == [v]
  {
    match v
    case Arr(items) => items
    case Str(s) => [Str(s)]
    case _ => [Str(show(v))]
  }

  /** Every string of a duplicate-free list present in `r` leaves `r` at least as long as the list. */
  lemma {:induction false} AllPresentBound(xs: seq<string>, r: seq<Value>)
    requires Distinct(xs)
    requires forall m :: 0 <= m < |xs| ==> Str(xs[m]) in r
    ensures |xs| <= |r|
    decreases |xs|
  {
    if |xs| > 0 {
      var last := Str(xs[|xs| - 1]);
      var p :| 0 <= p < |r| && r[p] == last;
      var r' := r[..p] + r[p + 1..];
      var xs' := xs[..|xs| - 1];
      forall m | 0 <= m < |xs'| ensures Str(xs'[m]) in r' {
        assert xs'[m] == xs[m] != xs[|xs| - 1];
        var q :| 0 <= q < |r| && r[q] == Str(xs[m]);
        if q < p {
          assert r'[q] == r[q];
        } else {
          assert r'[q - 1] == r[q];
        }
      }
      AllPresentBound(xs', r');
    }
  }

  /**
   The top-up: while fewer than five questions are present, fallback questions
   that are not already in the list are appended in order until there are five.
   */
  method TopUp(questions: seq<Value>, domain: string) returns (r: seq<Value>)
    ensures |questions| >= 5 ==> r == questions
    ensures |questions| < 5 ==> |r| == 5
    ensures |questions| <= |r| && r[..|questions|] == questions
    ensures forall k :: |questions| <= k < |r| ==>
              r[k].Str? && r[k].s in FallbackQuestions(Some(domain)) && r[k] !in questions
    ensures forall k, l :: |questions| <= k < l < |r| ==> r[k] != r[l]
  {
    r := questions;
    if |r| < 5 {
      var extra := FallbackQuestions(Some(domain));
      var i := 0;
      while i < |extra|
        invariant 0 <= i <= |extra|
        invariant |questions| <= |r| < 5 && r[..|questions|] == questions
        invariant forall m :: 0 <= m < i ==> Str(extra[m]) in r
        invariant forall k :: |questions| <= k < |r| ==> r[k].Str? && r[k].s in extra[..i] && r[k] !in questions
        invariant forall k, l :: |questions| <= k < l < |r| ==> r[k] != r[l]
      {
        if Str(extra[i]) !in r {
          r := r + [Str(extra[i])];
        }
        if |r| >= 5 {
          break;
        }
        i := i + 1;
      }
      if |r| < 5 {
        AllPresentBound(extra, r);
      }
    }
  }

  // ---------------------------------------------------------------------------
  // The whole synthesizer
  // ---------------------------------------------------------------------------

  /** The stored analysis fields the synthesizer reads; absent fields are empty. */
  datatype Analysis = Analysis(
    resumeText: string,
    domain: string,
    score: real,
    strengths: seq<string>,
    improvements: seq<string>)

  /** What is sent to the model: the prompt's variable parts. */
  datatype Request = Request(
    domain: string,
    score: real,
    strengths: seq<string>,
    improvements: seq<string>,
    excerpt: string)

  /** At most this many characters of the resume go into the prompt. */
  const ExcerptLength: nat := 4000

  /** The domain the synthesizer works with: `analysis.get("domain") or "general"`. */
  function EffectiveDomain(a: Analysis): (d: string)
    ensures d != []
    ensures a.domain != [] ==> d == a.domain
    ensures a.domain == [] ==> d == "general"
  {
    if a.domain == [] then "general" else a.domain
  }

  /** The request built from the analysis: a capped excerpt and a domain that is never empty. */
  function BuildRequest(a: Analysis): (q: Request)
    ensures |q.excerpt| <= ExcerptLength && q.excerpt <= a.resumeText
    ensures |a.resumeText| <= ExcerptLength ==> q.excerpt == a.resumeText
    ensures q.domain == EffectiveDomain(a)
  {
    Request(EffectiveDomain(a), a.score, a.strengths, a.improvements, Take(a.resumeText, ExcerptLength))
  }

  /**
   `generate_ai_questions(analysis)`.  `ask` is the chat call (None for any
   transport or HTTP failure or a reply without message content), `parse` is
   `json.loads` and `show` is `str` on non-string values.  A failure anywhere,
   including a reply that decodes to something other than an object, gives the
   domain fallback and the fixed tips; otherwise the model's lists are kept,
   wrapped if they are not lists, and the questions are topped up.  Either way
   there are at least five questions.
   */
  method GenerateAiQuestions(
    a: Analysis,
    ask: Request -> Option<string>,
    parse: string -> Option<Value>,
    show: Value -> string)
    returns (questions: seq<Value>, improvements: seq<Value>)
    ensures |questions| >= 5
    ensures var reply := ask(BuildRequest(a));
            var parsed := if reply.Some? then ParseJsonFromContent(reply.value, parse) else Failure(NoJsonFound);
            !(parsed.Success? && parsed.value.Obj?) ==>
              questions == AsValues(FallbackQuestions(Some(EffectiveDomain(a)))) && improvements == AsValues(FallbackTips)
    ensures var reply := ask(BuildRequest(a));
            var parsed := if reply.Some? then ParseJsonFromContent(reply.value, parse) else Failure(NoJsonFound);
            a.domain == [] && !(parsed.Success? && parsed.value.Obj?) ==> questions == AsValues(GenericFallback)
    ensures var reply := ask(BuildRequest(a));
            reply.Some? && ParseJsonFromContent(reply.value, parse).Success? && ParseJsonFromContent(reply.value, parse).value.Obj? ==>
              var fields := ParseJsonFromContent(reply.value, parse).value.fields;
              var qs := Coerce(Field(fields, "questions"), show);
              && improvements == Coerce(Field(fields, "improvements"), show)
              && |qs| <= |questions| && questions[..|qs|] == qs
              && (|qs| >= 5 ==> questions == qs)
              && (|qs| < 5 ==> |questions| == 5)
              && (forall k :: |qs| <= k < |questions| ==>
                    && questions[k] !in qs
                    && questions[k].Str?
                    && questions[k].s in FallbackQuestions(Some(EffectiveDomain(a))))
  {
    var domain := EffectiveDomain(a);
    var reply := ask(BuildRequest(a));
    var parsed := if reply.Some? then ParseJsonFromContent(reply.value, parse) else Failure(NoJsonFound);
    if parsed.Success? && parsed.value.Obj? {
      var fields := parsed.value.fields;
      var qs := Coerce(Field(fields, "questions"), show);
      improvements := Coerce(Field(fields, "improvements"), show);
      questions := TopUp(qs, domain);
    } else {
      GeneralDomainIsGeneric();
      questions := AsValues(FallbackQuestions(Some(domain)));
      improvements := AsValues(FallbackTips);
    }
  }
}

=== FILE: anonymizer.dfy ===
/**
 The resume anonymizer: three substitution passes (e-mail addresses, phone
 numbers, honorific titles) followed by a line-by-line rewrite that replaces
 name, date-of-birth and address lines, and probable name lines near the top,
 with fixed placeholders.  The e-mail and title passes are regular-expression
 substitutions taken as parameters; the phone pass is modelled as the scanner
 that Python's `re.sub` runs for its pattern.
 */
module Anonymizer {
  import opened Wrappers
  import opened Text

  // ---------------------------------------------------------------------------
  // Phone pass: `(\+?\d[\d\-\s]{8,}\d)` replaced by "[PHONE]"
  // ---------------------------------------------------------------------------

  const PhonePlaceholder: string := "[PHONE]"

  /** The character class `[\d\-\s]` of the phone pattern. */
  predicate InPhoneRun(c: char) {
    IsDigit(c) || c == '-' || IsSpace(c)
  }

  /** Where the leading digit of a match starting at `p` sits: after an optional `+`. */
  function DigitStart(s: string, p: nat): nat {
    if p < |s| && s[p] == '+' then p + 1 else p
  }

  /**
   The phone pattern matches `s[p..k + 1]`: an optional `+`, a digit, at least
   eight characters of the class, and a final digit at `k`.
   */
  predicate PhoneSpan(s: string, p: nat, k: nat) {
    var q := DigitStart(s, p);
    && q + 9 <= k < |s|
    && IsDigit(s[q])
    && IsDigit(s[k])
    && forall m :: q < m < k ==> InPhoneRun(s[m])
  }

  /** No phone number can be matched anywhere in `s`. */
  ghost predicate PhoneFree(s: string) {
    forall p: nat, k: nat :: !PhoneSpan(s, p, k)
  }

  /** The end of the run of class characters that starts at `i`. */
  function RunEnd(s: string, i: nat): (e: nat)
    requires i <= |s|
    ensures i <= e <= |s|
    ensures forall m :: i <= m < e ==> InPhoneRun(s[m])
    ensures e < |s| ==> !InPhoneRun(s[e])
    decreases |s| - i
  {
    if i < |s| && InPhoneRun(s[i]) then RunEnd(s, i + 1) else i
  }

  /** The last digit in `s[lo..hi]`, if any. */
  function LastDigit(s: string, lo: nat, hi: nat): (r: Option<nat>)
    requires hi <= |s|
    ensures r.Some? ==> lo <= r.value < hi && IsDigit(s[r.value])
    ensures r.Some? ==> forall m :: r.value < m < hi ==> !IsDigit(s[m])
    ensures r.None? ==> forall m :: lo <= m < hi ==> !IsDigit(s[m])
    decreases hi
  {
    if hi <= lo then None
    else if IsDigit(s[hi - 1]) then Some(hi - 1)
    else LastDigit(s, lo, hi - 1)
  }

  /**
   The end of the phone match the regular-expression engine finds at `p`, if
   any.  The class repetition is greedy and gives characters back until the
   final `\d` matches, so the match ends at the LAST digit that can close it.
   */
  function PhoneMatch(s: string, p: nat): (r: Option<nat>)
    ensures r.Some? ==> p < r.value <= |s| && PhoneSpan(s, p, r.value - 1)
    ensures r.Some? ==> forall k: nat :: PhoneSpan(s, p, k) ==> k < r.value
    ensures r.None? ==> forall k: nat :: !PhoneSpan(s, p, k)
  {
    var q := DigitStart(s, p);
    if q >= |s| || !IsDigit(s[q]) then None
    else
      var e := RunEnd(s, q + 1);
      assert forall k: nat :: PhoneSpan(s, p, k) ==> k < e by {
        forall k: nat | PhoneSpan(s, p, k) ensures k < e {
          if e <= k {
            assert InPhoneRun(s[e]);
          }
        }
      }
      match LastDigit(s, q + 9, e)
      case Some(k) => Some(k + 1)
      case None => None
  }

  /** `re.sub` of the phone pattern, scanning from index `p`. */
  function ReplacePhonesFrom(s: string, p: nat): string
    decreases |s| - p
  {
    if p >= |s| then []
    else match PhoneMatch(s, p)
      case Some(e) => PhonePlaceholder + ReplacePhonesFrom(s, e)
      case None => [s[p]] + ReplacePhonesFrom(s, p + 1)
  }

  /** The characters a phone match can consist of. */
  predicate PhoneChar(c: char) {
    InPhoneRun(c) || c == '+'
  }

  lemma SpanChars(s: string, p: nat, k: nat)
    requires PhoneSpan(s, p, k)
    ensures p <= k && forall m :: p <= m <= k ==> PhoneChar(s[m])
  {
  }

  /** A match depends only on the characters it covers. */
  lemma SpanTransfer(s: string, p: nat, k: nat, t: string, j: nat)
    requires PhoneSpan(s, p, k)
    requires j + (k - p) < |t| && t[j..j + (k - p) + 1] == s[p..k + 1]
    ensures PhoneSpan(t, j, j + (k - p))
  {
    SpanChars(s, p, k);
    var d := k - p;
    forall m | j <= m <= j + d ensures t[m] == s[m - j + p] {
      assert t[j..j + d + 1][m - j] == s[p..k + 1][m - j];
    }
    var q := DigitStart(s, p);
    var q' := DigitStart(t, j);
    assert q' - j == q - p;
    forall m | q' < m < j + d ensures InPhoneRun(t[m]) {
      assert t[m] == s[m - j + p];
    }
  }

  /** A match that starts past a prefix is a match in the rest of the text. */
  lemma SpanShift(x: string, t: string, j: nat, k: nat)
    requires PhoneSpan(x + t, j, k) && |x| <= j
    ensures PhoneSpan(t, j - |x|, k - |x|)
  {
    assert (x + t)[j..k + 1] == t[j - |x|..k - |x| + 1];
    SpanTransfer(x + t, j, k, t, j - |x|);
  }

  /** No match starts inside the placeholder: none of its characters is a phone character. */
  lemma NoSpanInPlaceholder(t: string, j: nat, k: nat)
    requires j < |PhonePlaceholder|
    ensures !PhoneSpan(PhonePlaceholder + t, j, k)
  {
    if PhoneSpan(PhonePlaceholder + t, j, k) {
      SpanChars(PhonePlaceholder + t, j, k);
      assert false;
    }
  }

  lemma PlaceholderFirstChar(t: string)
    ensures (PhonePlaceholder + t)[0] == '[' && !PhoneChar('[')
  {
  }

  /**
   Where the output of the scan from `p` begins with phone characters only, it
   begins with the input's own characters: a placeholder starts with `[`.
   */
  lemma {:induction false} OutputAgreesOnPhoneChars(s: string, p: nat, n: nat)
    requires p <= |s|
    requires n <= |ReplacePhonesFrom(s, p)|
    requires forall m :: 0 <= m < n ==> PhoneChar(ReplacePhonesFrom(s, p)[m])
    ensures p + n <= |s| && ReplacePhonesFrom(s, p)[..n] == s[p..p + n]
    decreases |s| - p, 1
  {
    if n > 0 {
      var r := ReplacePhonesFrom(s, p);
      assert p < |s| && PhoneChar(r[0]);
      if PhoneMatch(s, p).Some? {
        PlaceholderStart(s, p);
        assert false;
      }
      KeptStep(s, p);
      var r' := ReplacePhonesFrom(s, p + 1);
      TailPhoneChars(r, s[p], r', n);
      OutputAgreesAfterKept(s, p, n, r');
    }
  }

  /** The step case: a kept character followed by an agreeing rest. */
  lemma {:induction false} OutputAgreesAfterKept(s: string, p: nat, n: nat, r': string)
    requires 0 < n && p < |s| && r' == ReplacePhonesFrom(s, p + 1)
    requires n - 1 <= |r'| && forall m :: 0 <= m < n - 1 ==> PhoneChar(r'[m])
    ensures p + n <= |s| && ([s[p]] + r')[..n] == s[p..p + n]
    decreases |s| - p, 0
  {
    OutputAgreesOnPhoneChars(s, p + 1, n - 1);
    ConsPrefix(s, p, n, r');
  }

  /** Dropping the first character of a string keeps its leading phone characters. */
  lemma TailPhoneChars(r: string, c: char, r': string, n: nat)
    requires r == [c] + r' && 0 < n <= |r|
    requires forall m :: 0 <= m < n ==> PhoneChar(r[m])
    ensures n - 1 <= |r'| && forall m :: 0 <= m < n - 1 ==> PhoneChar(r'[m])
  {
    forall m | 0 <= m < n - 1 ensures PhoneChar(r'[m]) {
      assert r'[m] == r[m + 1];
    }
  }

  /** Where a match starts, the output starts with the placeholder's `[`, not a phone character. */
  lemma PlaceholderStart(s: string, p: nat)
    requires p < |s| && PhoneMatch(s, p).Some?
    ensures |ReplacePhonesFrom(s, p)| > 0 && !PhoneChar(ReplacePhonesFrom(s, p)[0])
  {
    PlaceholderFirstChar(ReplacePhonesFrom(s, PhoneMatch(s, p).value));
  }

  /** Where no match starts, the character is kept and the scan moves on by one. */
  lemma KeptStep(s: string, p: nat)
    requires p < |s| && PhoneMatch(s, p).None?
    ensures ReplacePhonesFrom(s, p) == [s[p]] + ReplacePhonesFrom(s, p + 1)
  {
  }

  /** Putting back the kept character extends an agreeing prefix by one. */
  lemma ConsPrefix(s: string, p: nat, n: nat, r': string)
    requires 0 < n && p + n <= |s| && n - 1 <= |r'|
    requires r'[..n - 1] == s[p + 1..p + n]
    ensures ([s[p]] + r')[..n] == s[p..p + n]
  {
    assert ([s[p]] + r')[..n] == [s[p]] + r'[..n - 1];
    assert s[p..p + n] == [s[p]] + s[p + 1..p + n];
  }

  /** The scan from the match position `p` (kept character case) leaves no match at 0. */
  lemma NoSpanAtStart(s: string, p: nat, k: nat)
    requires p < |s| && PhoneMatch(s, p).None?
    ensures !PhoneSpan(ReplacePhonesFrom(s, p), 0, k)
  {
    var r := ReplacePhonesFrom(s, p);
    if PhoneSpan(r, 0, k) {
      SpanChars(r, 0, k);
      OutputAgreesOnPhoneChars(s, p, k + 1);
      assert r[0..k + 1] == s[p..p + k + 1];
      SpanTransfer(r, 0, k, s, p);
      assert false;
    }
  }

  /** The scan leaves no phone number behind. */
  lemma {:induction false} ReplacePhonesFromFree(s: string, p: nat)
    ensures PhoneFree(ReplacePhonesFrom(s, p))
    decreases |s| - p
  {
    if p < |s| {
      var r := ReplacePhonesFrom(s, p);
      match PhoneMatch(s, p)
      case Some(e) =>
        var r' := ReplacePhonesFrom(s, e);
        assert r == PhonePlaceholder + r';
        ReplacePhonesFromFree(s, e);
        forall j: nat, k: nat ensures !PhoneSpan(r, j, k) {
          if j < |PhonePlaceholder| {
            NoSpanInPlaceholder(r', j, k);
          } else if PhoneSpan(r, j, k) {
            SpanShift(PhonePlaceholder, r', j, k);
          }
        }
      case None =>
        var r' := ReplacePhonesFrom(s, p + 1);
        assert r == [s[p]] + r';
        ReplacePhonesFromFree(s, p + 1);
        forall j: nat, k: nat ensures !PhoneSpan(r, j, k) {
          if j == 0 {
            NoSpanAtStart(s, p, k);
          } else if PhoneSpan(r, j, k) {
            SpanShift([s[p]], r', j, k);
          }
        }
    }
  }

  /** Text without a phone number passes through the scan unchanged. */
  lemma {:induction false} ReplacePhonesFromIdentity(s: string, p: nat)
    requires PhoneFree(s) && p <= |s|
    ensures ReplacePhonesFrom(s, p) == s[p..]
    decreases |s| - p
  {
    if p < |s| {
      assert PhoneMatch(s, p).None?;
      ReplacePhonesFromIdentity(s, p + 1);
    }
  }

  lemma ReplacePhonesFreeIdentity(s: string)
    ensures PhoneFree(s) ==> ReplacePhonesFrom(s, 0) == s
  {
    if PhoneFree(s) {
      ReplacePhonesFromIdentity(s, 0);
      assert s[0..] == s;
    }
  }

  /**
   PHONE_PATTERN.sub("[PHONE]", s): no phone number survives, and text without
   one is returned unchanged (so a second pass changes nothing).
   */
  function ReplacePhones(s: string): (r: string)
    ensures PhoneFree(r)
    ensures PhoneFree(s) ==> r == s
  {
    ReplacePhonesFromFree(s, 0);
    ReplacePhonesFreeIdentity(s);
    ReplacePhonesFrom(s, 0)
  }

  // ---------------------------------------------------------------------------
  // Line pass
  // ---------------------------------------------------------------------------

  const NamePrefixes: seq<string> := ["name:", "full name:"]
  const DobPrefixes: seq<string> := ["dob", "date of birth"]
  const AddressPrefixes: seq<string> := ["address", "location", "current address", "permanent address"]

  /** The rule of the line pass that a line falls under, in the order the rules are tried. */
  datatype LineKind = NameLine | DobLine | AddressLine | CandidateName | Kept

  predicate HasLetter(s: string) {
    exists i :: 0 <= i < |s| && IsAlpha(s[i])
  }

  predicate HasDigit(s: string) {
    exists i :: 0 <= i < |s| && IsDigit(s[i])
  }

  /** A short line with a letter and no digit: probably the candidate's name. */
  predicate LooksLikeName(stripped: string) {
    1 <= WordCount(stripped) <= 4 && HasLetter(stripped) && !HasDigit(stripped)
  }

  /** Which rule rewrites the line at position `index` (0-based). */
  function Classify(index: nat, line: string): LineKind {
    var stripped := Strip(line);
    var lowered := Lower(stripped);
    if StartsWithAny(lowered, NamePrefixes) then NameLine
    else if StartsWithAny(lowered, DobPrefixes) then DobLine
    else if StartsWithAny(lowered, AddressPrefixes) then AddressLine
    else if index <= 3 && LooksLikeName(stripped) then CandidateName
    else Kept
  }

  /** The line that replaces a line of the given kind. */
  function Placeholder(kind: LineKind): string
    requires kind != Kept
  {
    match kind
    case NameLine => "Name: [ANONYMIZED]"
    case DobLine => "DOB: [ANONYMIZED]"
    case AddressLine => "Address: [ANONYMIZED]"
    case CandidateName => "[CANDIDATE NAME]"
  }

  lemma ClassifiedName(index: nat, line: string)
    requires StartsWith(Lower(Strip(line)), "name:")
    ensures Classify(index, line) == NameLine
  {
    assert "name:" in NamePrefixes;
  }

  /** Only the first four lines can be taken for the candidate's name. */
  lemma CandidateOnlyEarly(index: nat, line: string)
    ensures Classify(index, line) == CandidateName ==> index <= 3
  {
  }

  lemma ClassifiedDob(index: nat, line: string)
    requires |Lower(Strip(line))| > 0 && Lower(Strip(line))[0] == 'd'
    requires StartsWith(Lower(Strip(line)), "dob")
    ensures Classify(index, line) == DobLine
  {
    StartsWithNoneByFirstChar(Lower(Strip(line)), NamePrefixes);
  }

  lemma ClassifiedAddress(index: nat, line: string)
    requires |Lower(Strip(line))| > 0 && Lower(Strip(line))[0] == 'a'
    requires StartsWith(Lower(Strip(line)), "address")
    ensures Classify(index, line) == AddressLine
  {
    StartsWithNoneByFirstChar(Lower(Strip(line)), NamePrefixes);
    StartsWithNoneByFirstChar(Lower(Strip(line)), DobPrefixes);
  }

  lemma ClassifiedCandidate(index: nat, line: string)
    requires index <= 3
    requires |Lower(Strip(line))| > 0 && Lower(Strip(line))[0] == '['
    requires LooksLikeName(Strip(line))
    ensures Classify(index, line) == CandidateName
  {
    var l := Lower(Strip(line));
    NoKeywordPrefix(l);
  }

  /** A lowered line starting with `[` matches none of the keyword rules. */
  lemma NoKeywordPrefix(l: string)
    requires |l| > 0 && l[0] == '['
    ensures !StartsWithAny(l, NamePrefixes)
    ensures !StartsWithAny(l, DobPrefixes)
    ensures !StartsWithAny(l, AddressPrefixes)
  {
    StartsWithNoneByFirstChar(l, NamePrefixes);
    StartsWithNoneByFirstChar(l, DobPrefixes);
    StartsWithNoneByFirstChar(l, AddressPrefixes);
  }

  lemma NamePlaceholderStripped()
    ensures Strip("Name: [ANONYMIZED]") == "Name: [ANONYMIZED]"
  {
    StripUnchanged("Name: [ANONYMIZED]");
  }

  lemma NamePlaceholderLowered()
    ensures StartsWith(Lower("Name: [ANONYMIZED]"), "name:")
  {
    assert Lower("Name: [ANONYMIZED]")[..5] == "name:";
  }

  lemma NamePlaceholderClassified(index: nat)
    ensures Classify(index, "Name: [ANONYMIZED]") == NameLine
  {
    NamePlaceholderStripped();
    NamePlaceholderLowered();
    ClassifiedName(index, "Name: [ANONYMIZED]");
  }

  lemma DobPlaceholderStripped()
    ensures Strip("DOB: [ANONYMIZED]") == "DOB: [ANONYMIZED]"
  {
    StripUnchanged("DOB: [ANONYMIZED]");
  }

  lemma DobPlaceholderLowered()
    ensures Lower("DOB: [ANONYMIZED]")[0] == 'd'
    ensures StartsWith(Lower("DOB: [ANONYMIZED]"), "dob")
  {
    assert Lower("DOB: [ANONYMIZED]")[..3] == "dob";
  }

  lemma DobPlaceholderClassified(index: nat)
    ensures Classify(index, "DOB: [ANONYMIZED]") == DobLine
  {
    DobPlaceholderStripped();
    DobPlaceholderLowered();
    ClassifiedDob(index, "DOB: [ANONYMIZED]");
  }

  lemma AddressPlaceholderStripped()
    ensures Strip("Address: [ANONYMIZED]") == "Address: [ANONYMIZED]"
  {
    StripUnchanged("Address: [ANONYMIZED]");
  }

  lemma AddressPlaceholderLowered()
    ensures Lower("Address: [ANONYMIZED]")[0] == 'a'
    ensures StartsWith(Lower("Address: [ANONYMIZED]"), "address")
  {
    assert Lower("Address: [ANONYMIZED]")[..7] == "address";
  }

  lemma AddressPlaceholderClassified(index: nat)
    ensures Classify(index, "Address: [ANONYMIZED]") == AddressLine
  {
    AddressPlaceholderStripped();
    AddressPlaceholderLowered();
    ClassifiedAddress(index, "Address: [ANONYMIZED]");
  }

  lemma CandidatePlaceholderStripped()
    ensures Strip("[CANDIDATE NAME]") == "[CANDIDATE NAME]"
  {
    StripUnchanged("[CANDIDATE NAME]");
  }

  lemma CandidatePlaceholderLowered()
    ensures Lower("[CANDIDATE NAME]")[0] == '['
  {
  }

  lemma CandidatePlaceholderWords()
    ensures WordCount("[CANDIDATE NAME]") == 2
  {
    assert "[CANDIDATE NAME]" == "[CANDIDATE" + " " + "NAME]";
    WordCountTwo("[CANDIDATE", "NAME]");
  }

  lemma CandidatePlaceholderNoDigit()
    ensures !HasDigit("[CANDIDATE NAME]")
  {
  }

  lemma CandidatePlaceholderLooksLikeName()
    ensures LooksLikeName("[CANDIDATE NAME]")
  {
    CandidatePlaceholderWords();
    CandidatePlaceholderNoDigit();
    assert IsAlpha("[CANDIDATE NAME]"[1]);
  }

  lemma CandidatePlaceholderClassified(index: nat)
    requires index <= 3
    ensures Classify(index, "[CANDIDATE NAME]") == CandidateName
  {
    CandidatePlaceholderStripped();
    CandidatePlaceholderLowered();
    CandidatePlaceholderLooksLikeName();
    ClassifiedCandidate(index, "[CANDIDATE NAME]");
  }

  /** Each placeholder falls under the very rule that produced it. */
  lemma PlaceholderReclassified(index: nat, kind: LineKind)
    requires kind != Kept
    requires kind == CandidateName ==> index <= 3
    ensures Classify(index, Placeholder(kind)) == kind
  {
    match kind
    case NameLine => NamePlaceholderClassified(index);
    case DobLine => DobPlaceholderClassified(index);
    case AddressLine => AddressPlaceholderClassified(index);
    case CandidateName => CandidatePlaceholderClassified(index);
  }

  /** No placeholder holds a line break. */
  lemma PlaceholderNoBreak(kind: LineKind)
    requires kind != Kept
    ensures NoLineBreak(Placeholder(kind))
  {
    PrintableNoBreak(Placeholder(kind));
  }

  /** Printable ASCII text holds no line break. */
  lemma PrintableNoBreak(s: string)
    requires forall k :: 0 <= k < |s| ==> ' ' <= s[k] <= '~'
    ensures NoLineBreak(s)
  {
  }

  /** One line of the line pass. */
  function RewriteLine(index: nat, line: string): (r: string)
    ensures Classify(index, line) == Kept ==> r == line
    ensures Classify(index, line) != Kept ==> Classify(index, r) == Classify(index, line)
  {
    var kind := Classify(index, line);
    CandidateOnlyEarly(index, line);
    if kind == Kept then line
    else PlaceholderReclassified(index, kind); Placeholder(kind)
  }

  /**
   Past the first four lines, a line is kept verbatim unless it starts with a
   keyword: one that opens with any other character is kept even when a
   keyword ("address", "name:") occurs later in it.
   */
  lemma MidLineKeywordKept(index: nat, line: string)
    requires index > 3
    requires |Lower(Strip(line))| > 0
    requires Lower(Strip(line))[0] !in "nfdlcpa"
    ensures RewriteLine(index, line) == line
  {
    var l := Lower(Strip(line));
    StartsWithNoneByFirstChar(l, NamePrefixes);
    StartsWithNoneByFirstChar(l, DobPrefixes);
    StartsWithNoneByFirstChar(l, AddressPrefixes);
  }

  /** The line pass: every line rewritten in place, one output line per input line. */
  function LinePass(lines: seq<string>): (r: seq<string>)
    ensures |r| == |lines|
    ensures forall i :: 0 <= i < |lines| ==> r[i] == RewriteLine(i, lines[i])
  {
    seq(|lines|, i requires 0 <= i < |lines| => RewriteLine(i, lines[i]))
  }

  /** The line pass is a fixed point on its own output. */
  lemma LinePassIdempotent(lines: seq<string>)
    ensures LinePass(LinePass(lines)) == LinePass(lines)
  {
  }

  /** The line pass introduces no line break: placeholders have none. */
  lemma LinePassNoBreaks(lines: seq<string>)
    requires forall k :: 0 <= k < |lines| ==> NoLineBreak(lines[k])
    ensures forall k :: 0 <= k < |LinePass(lines)| ==> NoLineBreak(LinePass(lines)[k])
  {
    forall k | 0 <= k < |lines| ensures NoLineBreak(LinePass(lines)[k]) {
      var kind := Classify(k, lines[k]);
      if kind != Kept {
        PlaceholderNoBreak(kind);
        assert LinePass(lines)[k] == Placeholder(kind);
      }
    }
  }

  /** The rewritten lines, joined with `\n`, split back into the same lines. */
  lemma LinePassRoundTrip(lines: seq<string>)
    requires forall k :: 0 <= k < |lines| ==> NoLineBreak(lines[k])
    requires |LinePass(lines)| > 0 ==> LinePass(lines)[|lines| - 1] != []
    ensures SplitLines(JoinLines(LinePass(lines))) == LinePass(lines)
  {
    LinePassNoBreaks(lines);
    SplitJoinLines(LinePass(lines));
  }

  // ---------------------------------------------------------------------------
  // The whole anonymizer
  // ---------------------------------------------------------------------------

  /** The three substitution passes, in the order e-mail, phone, title. */
  function Substitute(text: string, redactEmails: string -> string, redactTitles: string -> string): string {
    redactTitles(ReplacePhones(redactEmails(text)))
  }

  /** `anonymize_resume(text)`, given the e-mail and title substitutions. */
  function Anonymize(text: string, redactEmails: string -> string, redactTitles: string -> string): (r: string)
    ensures text == [] ==> r == text
  {
    if text == [] then text
    else JoinLines(LinePass(SplitLines(Substitute(text, redactEmails, redactTitles))))
  }

  lemma AnonymizeNonEmpty(text: string, redactEmails: string -> string, redactTitles: string -> string)
    requires text != []
    ensures Anonymize(text, redactEmails, redactTitles)
         == JoinLines(LinePass(SplitLines(Substitute(text, redactEmails, redactTitles))))
  {
  }

  /**
   The lines of the anonymized text are the substituted text's lines, each
   rewritten in place: one output line per input line.  (`splitlines` drops a
   trailing empty line, hence the condition on the last line.)
   */
  lemma AnonymizedLines(text: string, redactEmails: string -> string, redactTitles: string -> string)
    requires text != []
    requires var out := LinePass(SplitLines(Substitute(text, redactEmails, redactTitles)));
             |out| > 0 ==> out[|out| - 1] != []
    ensures var lines := SplitLines(Substitute(text, redactEmails, redactTitles));
            SplitLines(Anonymize(text, redactEmails, redactTitles)) == LinePass(lines)
  {
    AnonymizeNonEmpty(text, redactEmails, redactTitles);
    var sub := Substitute(text, redactEmails, redactTitles);
    LinePassRoundTrip(SplitLines(sub));
  }

  /** Running the line pass again over the anonymized text's lines changes nothing. */
  lemma AnonymizedLinesStable(text: string, redactEmails: string -> string, redactTitles: string -> string)
    requires text != []
    requires var out := LinePass(SplitLines(Substitute(text, redactEmails, redactTitles)));
             |out| > 0 ==> out[|out| - 1] != []
    ensures var out := SplitLines(Anonymize(text, redactEmails, redactTitles));
            LinePass(out) == out
  {
    AnonymizedLines(text, redactEmails, redactTitles);
    LinePassIdempotent(SplitLines(Substitute(text, redactEmails, redactTitles)));
  }
}

=== FILE: inference.dfy ===
/**
 The rule-based layer of the inference module: bank questions for the matched
 skills, one-line strength and improvement summaries, and `run_analysis`,
 which blends the classifier's score with the share of domain skills found.
 */
module Inference {
  import opened Wrappers
  import opened Text
  import opened SkillConfig
  import opened SkillMatch
  import opened Scorer

  // ---------------------------------------------------------------------------
  // Summaries
  // ---------------------------------------------------------------------------

  /**
   `[f"{prefix}{', '.join(items)}"] if items else [whenEmpty]`, as one line:
   the prefix followed by every item, or the fixed text when there are none.
   */
  function Summary(prefix: string, items: seq<string>, whenEmpty: string): (r: string)
    ensures |items| == 0 ==> r == whenEmpty
    ensures items != [] ==> StartsWith(r, prefix)
    ensures forall x :: x in items ==> Contains(r, x)
  {
    if |items| == 0 then whenEmpty
    else
      var joined := Join(", ", items);
      assert (prefix + joined)[..|prefix|] == prefix;
      assert forall x :: x in items ==> Contains(prefix + joined, x) by {
        forall x | x in items ensures Contains(prefix + joined, x) {
          JoinContainsElement(", ", items, x);
          ContainsExtend(prefix, joined, [], x);
          assert prefix + joined + [] == prefix + joined;
        }
      }
      prefix + joined
  }

  /** The one-line list `Summary` is returned in. */
  function SummaryLine(prefix: string, items: seq<string>, whenEmpty: string): (r: seq<string>)
    ensures |r| == 1
    ensures items == [] ==> r == [whenEmpty]
    ensures items != [] ==> StartsWith(r[0], prefix)
    ensures forall x :: x in items ==> Contains(r[0], x)
  {
    [Summary(prefix, items, whenEmpty)]
  }

  const StrengthsPrefix: string := "You already know: "
  const ImprovementsPrefix: string := "Improve in: "

  /** The texts `run_analysis` uses when no skill is found or none is missing. */
  const NoStrongSkills: string := "No strong domain-specific skills detected."
  const CoveredMajorSkills: string := "You covered major skills for this domain!"

  // ---------------------------------------------------------------------------
  // Bank questions
  // ---------------------------------------------------------------------------

  /** The bank entries of the skills, in skill order: `QUESTION_BANK.get(skill.lower())` for each. */
  function BankQuestions(skills: seq<string>): seq<string>
    decreases |skills|
  {
    if |skills| == 0 then []
    else BankQuestions(skills[..|skills| - 1]) + BankQuestionsFor(Lower(skills[|skills| - 1]))
  }

  /** The questions of a longer skill list are those of its parts, in order. */
  lemma {:induction false} BankQuestionsAppend(a: seq<string>, b: seq<string>)
    ensures BankQuestions(a + b) == BankQuestions(a) + BankQuestions(b)
    decreases |b|
  {
    if |b| == 0 {
      assert a + b == a;
    } else {
      var b' := b[..|b| - 1];
      assert (a + b)[..|a + b| - 1] == a + b';
      BankQuestionsAppend(a, b');
    }
  }

  /** No bank question at all exactly when no skill has a bank entry (entries are never empty). */
  lemma {:induction false} BankQuestionsEmpty(skills: seq<string>)
    ensures BankQuestions(skills) == [] <==> forall k :: 0 <= k < |skills| ==> BankGet(Lower(skills[k])).None?
    decreases |skills|
  {
    if |skills| > 0 {
      var init := skills[..|skills| - 1];
      var last := Lower(skills[|skills| - 1]);
      BankQuestionsEmpty(init);
      BankWellFormed(last);
      assert BankQuestions(skills) == BankQuestions(init) + BankQuestionsFor(last);
      assert BankQuestionsFor(last) == [] <==> BankGet(last).None?;
      assert forall k :: 0 <= k < |init| ==> init[k] == skills[k];
    }
  }

  const SkillFallbackQuestions: seq<string> := [
    "Tell me about yourself professionally.",
    "What was your toughest project and why?",
    "What skill do you want to improve and how?"]

  /**
   `generate_skill_based_questions(matched_skills)`: the bank questions of the
   matched skills, or three generic questions when there are none; never empty.
   */
  function GenerateSkillBasedQuestions(matched: seq<string>): (r: seq<string>)
    ensures |r| > 0
    ensures BankQuestions(matched) != [] ==> r == BankQuestions(matched)
    ensures (forall k :: 0 <= k < |matched| ==> BankGet(Lower(matched[k])).None?) ==> r == SkillFallbackQuestions
  {
    BankQuestionsEmpty(matched);
    var qs := BankQuestions(matched);
    if qs == [] then SkillFallbackQuestions else qs
  }

  // ---------------------------------------------------------------------------
  // run_analysis
  // ---------------------------------------------------------------------------

  /** The caller-supplied fields copied into the analysis unchanged. */
  datatype Candidate = Candidate(
    id: string,
    name: Option<string>,
    email: Option<string>,
    source: string,
    resumePath: Option<string>)

  /** The dictionary `run_analysis` returns. */
  datatype AnalysisRecord = AnalysisRecord(
    candidate: Candidate,
    domain: string,
    resumeText: string,
    score: real,
    mlScore: real,
    ruleScore: real,
    selected: bool,
    matchedSkills: seq<string>,
    missingSkills: seq<string>,
    strengths: seq<string>,
    improvements: seq<string>,
    questions: seq<string>)

  /**
   `run_analysis(...)` with the rounding of the blended score left out.  The
   rule score is the share of the domain's skills the resume mentions, the
   blend is the mean of it and the classifier's score, `selected` follows the
   classifier's label, and there is always exactly one strength line, one
   improvement line and at least one question.
   */
  function RunAnalysis(c: Classifier, cand: Candidate, text: string, domain: string): (r: AnalysisRecord)
    requires c.Valid()
    ensures (r.matchedSkills, r.missingSkills) == DetectSkills(text, domain)
    ensures r.ruleScore == RuleScore(r.matchedSkills, r.missingSkills)
    ensures r.mlScore == Predict(c, text).score && r.score == (r.mlScore + r.ruleScore) / 2.0
    ensures r.selected <==> Predict(c, text).outcome == "selected"
    ensures IsBlank(text) ==> r.mlScore == 0.0 && !r.selected
    ensures |r.strengths| == 1 && |r.improvements| == 1 && |r.questions| > 0
    ensures forall s :: s in r.matchedSkills ==> Contains(r.strengths[0], s)
    ensures forall s :: s in r.missingSkills ==> Contains(r.improvements[0], s)
    ensures r.matchedSkills == [] ==> r.strengths == [NoStrongSkills]
    ensures r.matchedSkills != [] ==> StartsWith(r.strengths[0], StrengthsPrefix)
    ensures r.missingSkills == [] ==> r.improvements == [CoveredMajorSkills]
    ensures r.missingSkills != [] ==> StartsWith(r.improvements[0], ImprovementsPrefix)
    ensures r.questions == GenerateSkillBasedQuestions(r.matchedSkills)
    ensures r.candidate == cand && r.domain == domain && r.resumeText == text
  {
    var prediction := Predict(c, text);
    var split := DetectSkills(text, domain);
    var found := split.0;
    var missing := split.1;
    var ruleScore := RuleScore(found, missing);
    var strengths := SummaryLine(StrengthsPrefix, found, NoStrongSkills);
    var improvements := SummaryLine(ImprovementsPrefix, missing, CoveredMajorSkills);
    AnalysisRecord(
      cand, domain, text,
      (prediction.score + ruleScore) / 2.0, prediction.score, ruleScore,
      prediction.outcome == "selected",
      found, missing, strengths, improvements,
      GenerateSkillBasedQuestions(found))
  }

  /** With a classifier whose probabilities lie in [0, 1], so does the blended score. */
  lemma BlendedScoreInUnitRange(c: Classifier, cand: Candidate, text: string, domain: string)
    requires c.Valid()
    requires forall e, k :: 0 <= k < |c.predictProba(e)| ==> 0.0 <= c.predictProba(e)[k] <= 1.0
    ensures 0.0 <= RunAnalysis(c, cand, text, domain).score <= 1.0
  {
    var p := Predict(c, text);
    if !IsBlank(text) {
      var i :| IsFirstMax(p.probs, i) && p.score == p.probs[i];
      assert p.probs == c.predictProba(c.embed(text));
      assert 0.0 <= p.probs[i] <= 1.0;
    }
  }
}

=== FILE: insights.dfy ===
/**
 Behavioural insights drawn from the resume text: which behavioural traits its
 wording suggests, and whether the candidate reads as project-oriented,
 balanced or theoretical.  Each trait pattern is an alternation of literal
 keywords, so `re.search` of it is a substring test for any of them.
 */
module Insights {
  import opened Text

  // ---------------------------------------------------------------------------
  // Behavioural traits
  // ---------------------------------------------------------------------------

  /** The keys of BEHAVIOUR_PATTERNS. */
  datatype Trait = Leadership | Communication | ProblemSolving | Teamwork | SelfLearning | Innovation

  /** The order in which the patterns are tried (the dictionary's insertion order). */
  const TraitOrder: seq<Trait> := [Leadership, Communication, ProblemSolving, Teamwork, SelfLearning, Innovation]

  /** The position of a trait in `TraitOrder`. */
  function Rank(t: Trait): (n: nat)
    ensures n < |TraitOrder| && TraitOrder[n] == t
  {
    match t
    case Leadership => 0
    case Communication => 1
    case ProblemSolving => 2
    case Teamwork => 3
    case SelfLearning => 4
    case Innovation => 5
  }

  /** The trait's key as the rest of the pipeline sees it. */
  function TraitName(t: Trait): string {
    match t
    case Leadership => "leadership"
    case Communication => "communication"
    case ProblemSolving => "problem_solving"
    case Teamwork => "teamwork"
    case SelfLearning => "self_learning"
    case Innovation => "innovation"
  }

  /** The alternatives of each trait's pattern. */
  function Keywords(t: Trait): seq<string> {
    match t
    case Leadership => ["led", "managed", "supervised", "team lead", "mentored", "organized", "guided"]
    case Communication => ["presented", "communicated", "collaborated", "client interaction", "stakeholder"]
    case ProblemSolving => ["debugged", "optimized", "resolved", "diagnosed", "analyzed"]
    case Teamwork => ["worked with", "collaborated", "team", "cross-functional"]
    case SelfLearning => ["self learned", "self-taught", "certification", "training", "bootcamp", "hackathon"]
    case Innovation => ["built", "developed", "designed", "created", "invented", "prototype"]
  }

  /** The trait's pattern is found somewhere in the lower-cased text. */
  predicate HasTrait(text: string, t: Trait) {
    exists kw | kw in Keywords(t) :: Contains(Lower(text), kw)
  }

  /** The traits from position `k` of `TraitOrder` on whose pattern the text matches. */
  function InferFrom(text: string, k: nat): (r: seq<Trait>)
    requires k <= |TraitOrder|
    ensures forall t :: t in r <==> Rank(t) >= k && HasTrait(text, t)
    ensures forall i :: 0 <= i < |r| ==> Rank(r[i]) >= k
    ensures forall i, j :: 0 <= i < j < |r| ==> Rank(r[i]) < Rank(r[j])
    decreases |TraitOrder| - k
  {
    if k == |TraitOrder| then []
    else
      var t := TraitOrder[k];
      RankOfOrder(k);
      var rest := InferFrom(text, k + 1);
      assert forall u :: Rank(u) == k ==> u == t;
      if HasTrait(text, t) then [t] + rest else rest
  }

  /** `Rank` inverts `TraitOrder`. */
  lemma RankOfOrder(k: nat)
    requires k < |TraitOrder|
    ensures Rank(TraitOrder[k]) == k
  {
    if k == 0 {} else if k == 1 {} else if k == 2 {} else if k == 3 {} else if k == 4 {} else {}
  }

  /**
   `infer_candidate_traits(text)`: exactly the traits whose pattern matches,
   each once, in the patterns' order.
   */
  function InferTraits(text: string): (r: seq<Trait>)
    ensures forall t :: t in r <==> HasTrait(text, t)
    ensures forall i, j :: 0 <= i < j < |r| ==> Rank(r[i]) < Rank(r[j])
  {
    InferFrom(text, 0)
  }

  /** The trait list as the names the report tests for. */
  function TraitNames(traits: seq<Trait>): (r: seq<string>)
    ensures |r| == |traits|
    ensures forall i :: 0 <= i < |traits| ==> r[i] == TraitName(traits[i])
  {
    seq(|traits|, i requires 0 <= i < |traits| => TraitName(traits[i]))
  }

  /** A name is in the list exactly when its trait is: names identify traits. */
  lemma TraitNamesMembership(traits: seq<Trait>, t: Trait)
    ensures TraitName(t) in TraitNames(traits) <==> t in traits
  {
    if TraitName(t) in TraitNames(traits) {
      var i :| 0 <= i < |traits| && TraitNames(traits)[i] == TraitName(t);
      assert TraitName(traits[i]) == TraitName(t);
      assert traits[i] == t;
    }
    if t in traits {
      var i :| 0 <= i < |traits| && traits[i] == t;
      assert TraitNames(traits)[i] == TraitName(t);
    }
  }

  /** A text that mentions collaborating shows both communication and teamwork. */
  lemma CollaboratedSharedByTwoTraits(text: string)
    requires Contains(Lower(text), "collaborated")
    ensures Communication in InferTraits(text) && Teamwork in InferTraits(text)
  {
    assert "collaborated" in Keywords(Communication);
    assert "collaborated" in Keywords(Teamwork);
  }

  /** Adding text before or after a resume never takes a trait away. */
  lemma {:induction false} TraitsSurviveExtension(a: string, b: string, c: string, t: Trait)
    requires t in InferTraits(b)
    ensures t in InferTraits(a + b + c)
  {
    var kw :| kw in Keywords(t) && Contains(Lower(b), kw);
    LowerAppend(a, b);
    LowerAppend(a + b, c);
    ContainsExtend(Lower(a), Lower(b), Lower(c), kw);
  }

  // ---------------------------------------------------------------------------
  // Project orientation
  // ---------------------------------------------------------------------------

  const ProjectIndicators: seq<string> := ["project", "implemented", "built", "created", "developed", "designed"]

  /** The profile `detect_project_based_profile` reports. */
  datatype Profile = ProjectOriented | Balanced | Theoretical

  function ProfileName(p: Profile): string {
    match p
    case ProjectOriented => "project_oriented"
    case Balanced => "balanced"
    case Theoretical => "theoretical"
  }

  /** How many of `words` occur in `text`, each counted once per list entry. */
  function CountPresent(text: string, words: seq<string>): (n: nat)
    ensures n <= |words|
  {
    if |words| == 0 then 0
    else (if Contains(text, words[0]) then 1 else 0) + CountPresent(text, words[1..])
  }

  /** The words of the list that occur in the text. */
  function PresentWords(text: string, words: seq<string>): set<string> {
    set w | w in words && Contains(text, w)
  }

  lemma PresentWordsEmpty(text: string, words: seq<string>)
    ensures PresentWords(text, words) == {} <==> forall w | w in words :: !Contains(text, w)
  {
    if PresentWords(text, words) != {} {
      var w :| w in PresentWords(text, words);
    }
    if exists w | w in words :: Contains(text, w) {
      var w :| w in words && Contains(text, w);
      assert w in PresentWords(text, words);
    }
  }

  /** For a list without repeats, the count is the number of distinct words present. */
  lemma {:induction false} CountPresentIsCardinality(text: string, words: seq<string>)
    requires Distinct(words)
    ensures CountPresent(text, words) == |PresentWords(text, words)|
    decreases |words|
  {
    if |words| > 0 {
      var rest := words[1..];
      assert Distinct(rest) by {
        forall i, j | 0 <= i < j < |rest| ensures rest[i] != rest[j] {
          assert rest[i] == words[i + 1] && rest[j] == words[j + 1];
        }
      }
      CountPresentIsCardinality(text, rest);
      assert words[0] !in rest by {
        forall i | 0 <= i < |rest| ensures rest[i] != words[0] {
          assert rest[i] == words[i + 1];
        }
      }
      if Contains(text, words[0]) {
        assert PresentWords(text, words) == {words[0]} + PresentWords(text, rest);
      } else {
        assert PresentWords(text, words) == PresentWords(text, rest);
      }
    }
  }

  /** Every word found in a text is still found once text is added around it. */
  lemma {:induction false} CountPresentExtension(a: string, b: string, c: string, words: seq<string>)
    ensures CountPresent(b, words) <= CountPresent(a + b + c, words)
    decreases |words|
  {
    if |words| > 0 {
      if Contains(b, words[0]) {
        ContainsExtend(a, b, c, words[0]);
      }
      CountPresentExtension(a, b, c, words[1..]);
    }
  }

  /** The number of distinct indicators the lower-cased text contains. */
  function ProjectHits(text: string): (n: nat)
    ensures n <= |ProjectIndicators|
  {
    CountPresent(Lower(text), ProjectIndicators)
  }

  /** `detect_project_based_profile(text)`. */
  function DetectProfile(text: string): (p: Profile)
    ensures p == ProjectOriented <==> |PresentWords(Lower(text), ProjectIndicators)| >= 3
    ensures p == Theoretical <==> forall w | w in ProjectIndicators :: !Contains(Lower(text), w)
  {
    ProjectIndicatorsDistinct();
    CountPresentIsCardinality(Lower(text), ProjectIndicators);
    PresentWordsEmpty(Lower(text), ProjectIndicators);
    var hits := ProjectHits(text);
    if hits >= 3 then ProjectOriented
    else if hits >= 1 then Balanced
    else Theoretical
  }

  lemma ProjectIndicatorsDistinct()
    ensures Distinct(ProjectIndicators)
  {
  }

  /** How strongly a profile points at hands-on project work. */
  function ProfileStrength(p: Profile): nat {
    match p
    case Theoretical => 0
    case Balanced => 1
    case ProjectOriented => 2
  }

  /** Adding text around a resume never makes it look less project-oriented. */
  lemma ProfileMonotone(a: string, b: string, c: string)
    ensures ProfileStrength(DetectProfile(b)) <= ProfileStrength(DetectProfile(a + b + c))
  {
    LowerAppend(a, b);
    LowerAppend(a + b, c);
    CountPresentExtension(Lower(a), Lower(b), Lower(c), ProjectIndicators);
  }

  /** Any three different indicators make a resume project-oriented. */
  lemma ThreeIndicatorsSuffice(text: string, x: string, y: string, z: string)
    requires x in ProjectIndicators && y in ProjectIndicators && z in ProjectIndicators
    requires x != y && y != z && x != z
    requires Contains(Lower(text), x) && Contains(Lower(text), y) && Contains(Lower(text), z)
    ensures DetectProfile(text) == ProjectOriented
  {
    var present := PresentWords(Lower(text), ProjectIndicators);
    assert {x, y, z} <= present;
    assert |{x, y, z}| == 3;
    SubsetCardinality({x, y, z}, present);
  }

  lemma SubsetCardinality<T>(a: set<T>, b: set<T>)
    requires a <= b
    ensures |a| <= |b|
  {
    assert b == a + (b - a);
  }
}

=== FILE: scorer.dfy ===
/**
 The decision logic of the resume scorer: a blank resume is rejected outright;
 any other resume is embedded, its class probabilities are computed, and the
 first most probable class wins.  The embedding model and the classifier are
 uninterpreted functions; probabilities are reals.
 */
module Scorer {
  import opened Text

  /** The trained models: an embedding, a probability function and the class labels in class order. */
  datatype Classifier = Classifier(
    embed: string -> seq<real>,
    predictProba: seq<real> -> seq<real>,
    labels: seq<string>)
  {
    /** One probability per class for every embedding, and at least one class. */
    ghost predicate Valid() {
      && |labels| > 0
      && forall e :: |predictProba(e)| == |labels|
    }
  }

  /** What `predict_score_and_label` returns: the winning probability, its label (`outcome`) and all probabilities. */
  datatype Prediction = Prediction(score: real, outcome: string, probs: seq<real>)

  /** `i` is the first index at which `p` is maximal. */
  predicate IsFirstMax(p: seq<real>, i: int) {
    && 0 <= i < |p|
    && (forall j :: 0 <= j < |p| ==> p[j] <= p[i])
    && (forall j :: 0 <= j < i ==> p[j] < p[i])
  }

  /** The scan of `np.argmax` from index `k`, with `best` the first maximum of `p[..k]`. */
  function ArgMaxFrom(p: seq<real>, k: nat, best: nat): (i: nat)
    requires best < k <= |p|
    requires forall j :: 0 <= j < k ==> p[j] <= p[best]
    requires forall j :: 0 <= j < best ==> p[j] < p[best]
    ensures IsFirstMax(p, i)
    decreases |p| - k
  {
    if k == |p| then best
    else if p[k] > p[best] then ArgMaxFrom(p, k + 1, k)
    else ArgMaxFrom(p, k + 1, best)
  }

  /** `np.argmax(p)`: ties go to the lowest index. */
  function FirstArgMax(p: seq<real>): (i: nat)
    requires |p| > 0
    ensures IsFirstMax(p, i)
  {
    ArgMaxFrom(p, 1, 0)
  }

  /** There is only one first maximum, so `FirstArgMax` is determined by its contract. */
  lemma FirstMaxUnique(p: seq<real>, i: int, j: int)
    requires IsFirstMax(p, i) && IsFirstMax(p, j)
    ensures i == j
  {
    assert p[i] <= p[j] && p[j] <= p[i];
  }

  /** The resume has no non-whitespace character: `not resume_text.strip()`. */
  predicate IsBlank(text: string) {
    forall k :: 0 <= k < |text| ==> IsSpace(text[k])
  }

  /**
   `predict_score_and_label(resume_text)`.  A blank resume gives
   `(0.0, "rejected", [])`; otherwise the label is that of the first most
   probable class and the score is its probability, no smaller than any other.
   */
  function Predict(c: Classifier, text: string): (r: Prediction)
    requires c.Valid()
    ensures IsBlank(text) ==> r == Prediction(0.0, "rejected", [])
    ensures !IsBlank(text) ==> r.probs == c.predictProba(c.embed(text))
    ensures !IsBlank(text) ==> exists i :: IsFirstMax(r.probs, i) && r.outcome == c.labels[i] && r.score == r.probs[i]
  {
    StripBlank(text);
    if Strip(text) == [] then Prediction(0.0, "rejected", [])
    else
      var probs := c.predictProba(c.embed(text));
      var best := FirstArgMax(probs);
      Prediction(probs[best], c.labels[best], probs)
  }

  /** The winning score is the largest probability. */
  lemma ScoreIsMaximal(c: Classifier, text: string, j: nat)
    requires c.Valid() && !IsBlank(text)
    requires j < |Predict(c, text).probs|
    ensures Predict(c, text).probs[j] <= Predict(c, text).score
  {
  }

  /** A blank resume never reaches the models: any two classifiers agree on it. */
  lemma BlankIgnoresModels(c: Classifier, d: Classifier, text: string)
    requires c.Valid() && d.Valid() && IsBlank(text)
    ensures Predict(c, text) == Predict(d, text)
  {
  }

  /**
   With two classes whose probabilities sum to one, the winner has probability
   at least one half.
   */
  lemma TwoClassScoreAtLeastHalf(c: Classifier, text: string)
    requires c.Valid() && |c.labels| == 2 && !IsBlank(text)
    requires var p := c.predictProba(c.embed(text)); p[0] + p[1] == 1.0
    ensures Predict(c, text).score >= 0.5
  {
    var r := Predict(c, text);
    var i :| IsFirstMax(r.probs, i) && r.score == r.probs[i];
    assert r.probs[0] <= r.score && r.probs[1] <= r.score;
  }
}

=== FILE: skill_config.dfy ===
/**
 The static configuration of the screening pipeline: the skill list of every job
 domain and the bank of interview questions keyed by skill.  Both are Python
 dicts in the source; here the domain table is a chain of key tests and the
 question bank an association list searched front to back, in the dict's order.
 */
module SkillConfig {
  import opened Wrappers
  import opened Text

  // ---------------------------------------------------------------------------
  // Domain skill lists
  // ---------------------------------------------------------------------------

  /** `DOMAIN_SKILLS["software_engineer"]` */
  const SoftwareEngineerSkills: seq<string> := [
    "python", "java", "c++", "c#", "oop", "dsa", "algorithms", "data structures", "git",
    "api", "rest", "sql", "debugging", "django", "flask", "spring", "dotnet", "testing",
    "system design"
  ]

  /** `DOMAIN_SKILLS["data_science"]` */
  const DataScienceSkills: seq<string> := [
    "python", "numpy", "pandas", "statistics", "probability", "linear regression",
    "classification", "clustering", "machine learning", "deep learning", "nlp",
    "matplotlib", "seaborn", "scikit-learn", "tensorflow", "pytorch",
    "feature engineering", "model validation"
  ]

  /** `DOMAIN_SKILLS["web_development"]` */
  const WebDevelopmentSkills: seq<string> := [
    "html", "css", "javascript", "bootstrap", "react", "angular", "vue", "node",
    "express", "frontend", "backend", "rest api", "ui", "ux", "responsive design",
    "tailwind", "mongodb", "mysql"
  ]

  /** `DOMAIN_SKILLS["devops_cloud"]` */
  const DevopsCloudSkills: seq<string> := [
    "linux", "docker", "kubernetes", "jenkins", "aws", "azure", "gcp", "terraform",
    "ci/cd", "monitoring", "networking", "cloud security", "automation", "bash",
    "gitlab ci"
  ]

  /** `DOMAIN_SKILLS["ui_ux_design"]` */
  const UiUxDesignSkills: seq<string> := [
    "figma", "adobe xd", "wireframing", "user research", "prototyping", "ui patterns",
    "design systems", "interaction design", "accessibility", "usability testing"
  ]

  /** `DOMAIN_SKILLS["product_management"]` */
  const ProductManagementSkills: seq<string> := [
    "roadmapping", "agile", "scrum", "jira", "stakeholder management", "market research",
    "requirements gathering", "prioritization", "product strategy", "wireframing",
    "metrics", "release planning"
  ]

  /** `DOMAIN_SKILLS["cybersecurity"]` */
  const CybersecuritySkills: seq<string> := [
    "network security", "linux", "firewalls", "ethical hacking", "penetration testing",
    "siem", "incident response", "cryptography", "threat analysis", "osint",
    "vulnerability scanning"
  ]

  /** `DOMAIN_SKILLS["business_analyst"]` */
  const BusinessAnalystSkills: seq<string> := [
    "excel", "sql", "requirements gathering", "brd", "frd", "data visualization",
    "power bi", "tableau", "analysis", "uml", "documentation",
    "stakeholder communication"
  ]

  /** `DOMAIN_SKILLS["digital_marketing"]` */
  const DigitalMarketingSkills: seq<string> := [
    "seo", "sem", "google ads", "meta ads", "email marketing", "analytics",
    "content writing", "branding", "keyword research", "social media marketing",
    "campaign management"
  ]

  /** `DOMAIN_SKILLS["hr_talent_acquisition"]` */
  const HrTalentAcquisitionSkills: seq<string> := [
    "recruitment", "linkedin sourcing", "screening", "interviewing", "hrms", "ats",
    "employee engagement", "onboarding", "payroll basics", "communication",
    "conflict management"
  ]

  /** The keys of `DOMAIN_SKILLS`, in declaration order. */
  const DomainKeys: seq<string> := [
    "software_engineer",
    "data_science",
    "web_development",
    "devops_cloud",
    "ui_ux_design",
    "product_management",
    "cybersecurity",
    "business_analyst",
    "digital_marketing",
    "hr_talent_acquisition"
  ]

  /** `DOMAIN_SKILLS.get(domain)`. */
  function DomainSkills(domain: string): Option<seq<string>> {
    if domain == "software_engineer" then Some(SoftwareEngineerSkills)
    else if domain == "data_science" then Some(DataScienceSkills)
    else if domain == "web_development" then Some(WebDevelopmentSkills)
    else if domain == "devops_cloud" then Some(DevopsCloudSkills)
    else if domain == "ui_ux_design" then Some(UiUxDesignSkills)
    else if domain == "product_management" then Some(ProductManagementSkills)
    else if domain == "cybersecurity" then Some(CybersecuritySkills)
    else if domain == "business_analyst" then Some(BusinessAnalystSkills)
    else if domain == "digital_marketing" then Some(DigitalMarketingSkills)
    else if domain == "hr_talent_acquisition" then Some(HrTalentAcquisitionSkills)
    else None
  }

  /** `DOMAIN_SKILLS.get(domain, [])`: an unknown domain has no skills. */
  function SkillsFor(domain: string): seq<string> {
    DomainSkills(domain).GetOr([])
  }

  predicate AllLowercase(xs: seq<string>) {
    forall i :: 0 <= i < |xs| ==> IsLowercase(xs[i])
  }

  /** The shape every domain skill list has. */
  predicate WellFormedSkills(xs: seq<string>) {
    && Distinct(xs)
    && AllLowercase(xs)
    && "ml" !in xs
    && "requirements" !in xs
  }

  lemma SoftwareEngineerShape()
    ensures WellFormedSkills(SoftwareEngineerSkills)
  {
    SoftwareEngineerLowercase();
    SoftwareEngineerDistinct();
  }

  lemma SoftwareEngineerLowercase()
    ensures AllLowercase(SoftwareEngineerSkills)
  {
    forall i | 0 <= i < |SoftwareEngineerSkills| ensures IsLowercase(SoftwareEngineerSkills[i]) {
      if i < 4 {} else if i < 8 {} else if i < 12 {} else if i < 16 {} else {}
    }
  }

  lemma SoftwareEngineerDistinct()
    ensures Distinct(SoftwareEngineerSkills)
  {
    forall i, j | 0 <= i < j < |SoftwareEngineerSkills| ensures SoftwareEngineerSkills[i] != SoftwareEngineerSkills[j] {
      if i < 4 {} else if i < 8 {} else if i < 12 {} else if i < 16 {} else {}
    }
  }

  lemma DataScienceShape()
    ensures WellFormedSkills(DataScienceSkills)
  {
    DataScienceLowercase();
    DataScienceDistinct();
  }

  lemma DataScienceLowercase()
    ensures AllLowercase(DataScienceSkills)
  {
    forall i | 0 <= i < |DataScienceSkills| ensures IsLowercase(DataScienceSkills[i]) {
      if i < 4 {} else if i < 8 {} else if i < 12 {} else if i < 16 {} else {}
    }
  }

  lemma DataScienceDistinct()
    ensures Distinct(DataScienceSkills)
  {
    forall i, j | 0 <= i < j < |DataScienceSkills| ensures DataScienceSkills[i] != DataScienceSkills[j] {
      if i < 4 {} else if i < 8 {} else if i < 12 {} else if i < 16 {} else {}
    }
  }

  lemma WebDevelopmentShape()
    ensures WellFormedSkills(WebDevelopmentSkills)
  {
    WebDevelopmentLowercase();
    WebDevelopmentDistinct();
  }

  lemma WebDevelopmentLowercase()
    ensures AllLowercase(WebDevelopmentSkills)
  {
    forall i | 0 <= i < |WebDevelopmentSkills| ensures IsLowercase(WebDevelopmentSkills[i]) {
      if i < 4 {} else if i < 8 {} else if i < 12 {} else if i < 16 {} else {}
    }
  }

  lemma WebDevelopmentDistinct()
    ensures Distinct(WebDevelopmentSkills)
  {
    forall i, j | 0 <= i < j < |WebDevelopmentSkills| ensures WebDevelopmentSkills[i] != WebDevelopmentSkills[j] {
      if i < 4 {} else if i < 8 {} else if i < 12 {} else if i < 16 {} else {}
    }
  }

  lemma DevopsCloudShape()
    ensures WellFormedSkills(DevopsCloudSkills)
  {
    DevopsCloudLowercase();
    DevopsCloudDistinct();
  }

  lemma DevopsCloudLowercase()
    ensures AllLowercase(DevopsCloudSkills)
  {
    forall i | 0 <= i < |DevopsCloudSkills| ensures IsLowercase(DevopsCloudSkills[i]) {
      if i < 4 {} else if i < 8 {} else if i < 12 {} else {}
    }
  }

  lemma DevopsCloudDistinct()
    ensures Distinct(DevopsCloudSkills)
  {
    forall i, j | 0 <= i < j < |DevopsCloudSkills| ensures DevopsCloudSkills[i] != DevopsCloudSkills[j] {
      if i < 4 {} else if i < 8 {} else if i < 12 {} else if i < 16 {} else {}
    }
  }

  lemma UiUxDesignShape()
    ensures WellFormedSkills(UiUxDesignSkills)
  {
    UiUxDesignLowercase();
    UiUxDesignDistinct();
  }

  lemma UiUxDesignLowercase()
    ensures AllLowercase(UiUxDesignSkills)
  {
    forall i | 0 <= i < |UiUxDesignSkills| ensures IsLowercase(UiUxDesignSkills[i]) {
      if i < 4 {} else if i < 8 {} else {}
    }
  }

  lemma UiUxDesignDistinct()
    ensures Distinct(UiUxDesignSkills)
  {
    forall i, j | 0 <= i < j < |UiUxDesignSkills| ensures UiUxDesignSkills[i] != UiUxDesignSkills[j] {
      if i < 4 {} else if i < 8 {} else if i < 12 {} else if i < 16 {} else {}
    }
  }

  lemma ProductManagementShape()
    ensures WellFormedSkills(ProductManagementSkills)
  {
    ProductManagementLowercase();
    ProductManagementDistinct();
  }

  lemma ProductManagementLowercase()
    ensures AllLowercase(ProductManagementSkills)
  {
    forall i | 0 <= i < |ProductManagementSkills| ensures IsLowercase(ProductManagementSkills[i]) {
      if i < 4 {} else if i < 8 {} else {}
    }
  }

  lemma ProductManagementDistinct()
    ensures Distinct(ProductManagementSkills)
  {
    forall i, j | 0 <= i < j < |ProductManagementSkills| ensures ProductManagementSkills[i] != ProductManagementSkills[j] {
      if i < 4 {} else if i < 8 {} else if i < 12 {} else if i < 16 {} else {}
    }
  }

  lemma CybersecurityShape()
    ensures WellFormedSkills(CybersecuritySkills)
  {
    CybersecurityLowercase();
    CybersecurityDistinct();
  }

  lemma CybersecurityLowercase()
    ensures AllLowercase(CybersecuritySkills)
  {
    forall i | 0 <= i < |CybersecuritySkills| ensures IsLowercase(CybersecuritySkills[i]) {
      if i < 4 {} else if i < 8 {} else {}
    }
  }

  lemma CybersecurityDistinct()
    ensures Distinct(CybersecuritySkills)
  {
    forall i, j | 0 <= i < j < |CybersecuritySkills| ensures CybersecuritySkills[i] != CybersecuritySkills[j] {
      if i < 4 {} else if i < 8 {} else if i < 12 {} else if i < 16 {} else {}
    }
  }

  lemma BusinessAnalystShape()
    ensures WellFormedSkills(BusinessAnalystSkills)
  {
    BusinessAnalystLowercase();
    BusinessAnalystDistinct();
  }

  lemma BusinessAnalystLowercase()
    ensures AllLowercase(BusinessAnalystSkills)
  {
    forall i | 0 <= i < |BusinessAnalystSkills| ensures IsLowercase(BusinessAnalystSkills[i]) {
      if i < 4 {} else if i < 8 {} else {}
    }
  }

  lemma BusinessAnalystDistinct()
    ensures Distinct(BusinessAnalystSkills)
  {
    forall i, j | 0 <= i < j < |BusinessAnalystSkills| ensures BusinessAnalystSkills[i] != BusinessAnalystSkills[j] {
      if i < 4 {} else if i < 8 {} else if i < 12 {} else if i < 16 {} else {}
    }
  }

  lemma DigitalMarketingShape()
    ensures WellFormedSkills(DigitalMarketingSkills)
  {
    DigitalMarketingLowercase();
    DigitalMarketingDistinct();
  }

  lemma DigitalMarketingLowercase()
    ensures AllLowercase(DigitalMarketingSkills)
  {
    forall i | 0 <= i < |DigitalMarketingSkills| ensures IsLowercase(DigitalMarketingSkills[i]) {
      if i < 4 {} else if i < 8 {} else {}
    }
  }

  lemma DigitalMarketingDistinct()
    ensures Distinct(DigitalMarketingSkills)
  {
    forall i, j | 0 <= i < j < |DigitalMarketingSkills| ensures DigitalMarketingSkills[i] != DigitalMarketingSkills[j] {
      if i < 4 {} else if i < 8 {} else if i < 12 {} else if i < 16 {} else {}
    }
  }

  lemma HrTalentAcquisitionShape()
    ensures WellFormedSkills(HrTalentAcquisitionSkills)
  {
    HrTalentAcquisitionLowercase();
    HrTalentAcquisitionDistinct();
  }

  lemma HrTalentAcquisitionLowercase()
    ensures AllLowercase(HrTalentAcquisitionSkills)
  {
    forall i | 0 <= i < |HrTalentAcquisitionSkills| ensures IsLowercase(HrTalentAcquisitionSkills[i]) {
      if i < 4 {} else if i < 8 {} else {}
    }
  }

  lemma HrTalentAcquisitionDistinct()
    ensures Distinct(HrTalentAcquisitionSkills)
  {
    forall i, j | 0 <= i < j < |HrTalentAcquisitionSkills| ensures HrTalentAcquisitionSkills[i] != HrTalentAcquisitionSkills[j] {
      if i < 4 {} else if i < 8 {} else if i < 12 {} else if i < 16 {} else {}
    }
  }

  /** The domain table answers exactly for its ten keys. */
  lemma DomainKeysExact(domain: string)
    ensures DomainSkills(domain).Some? <==> domain in DomainKeys
  {
  }

  /**
   Every domain's skill list is duplicate-free and lower-case, and never holds
   the question-bank keys "ml" or "requirements".
   */
  lemma DomainSkillsWellFormed(domain: string)
    ensures WellFormedSkills(SkillsFor(domain))
  {
    if domain == "software_engineer" {
      SoftwareEngineerShape();
    }
    else if domain == "data_science" {
      DataScienceShape();
    }
    else if domain == "web_development" {
      WebDevelopmentShape();
    }
    else if domain == "devops_cloud" {
      DevopsCloudShape();
    }
    else if domain == "ui_ux_design" {
      UiUxDesignShape();
    }
    else if domain == "product_management" {
      ProductManagementShape();
    }
    else if domain == "cybersecurity" {
      CybersecurityShape();
    }
    else if domain == "business_analyst" {
      BusinessAnalystShape();
    }
    else if domain == "digital_marketing" {
      DigitalMarketingShape();
    }
    else if domain == "hr_talent_acquisition" {
      HrTalentAcquisitionShape();
    }
  }

  /** Skill names are already lower-case, so looking one up after `.lower()` uses the name itself. */
  lemma SkillLowerIsIdentity(domain: string, skill: string)
    requires skill in SkillsFor(domain)
    ensures Lower(skill) == skill
  {
    DomainSkillsWellFormed(domain);
    var xs := SkillsFor(domain);
    var i :| 0 <= i < |xs| && xs[i] == skill;
    LowerOfLowercase(skill);
  }

  // ---------------------------------------------------------------------------
  // Question bank
  // ---------------------------------------------------------------------------

  /** The SOFTWARE ENGINEERING section of `QUESTION_BANK`. */
  const SoftwareQuestions: seq<(string, seq<string>)> := [
    ("python", [
      "Explain list vs tuple.",
      "What is a lambda function?",
      "What is list comprehension?",
      "Difference between shallow and deep copy?"]),
    ("java", [
      "What is JVM, JRE and JDK?",
      "Explain inheritance in Java."]),
    ("c++", [
      "What is polymorphism in C++?",
      "Explain constructor vs destructor."]),
    ("oop", [
      "Explain the 4 principles of OOP with examples.",
      "What is abstraction vs encapsulation?"]),
    ("dsa", [
      "What is the difference between array and linked list?",
      "Explain time complexity of binary search."]),
    ("git", [
      "What is git pull vs git fetch?",
      "Explain branching strategy."]),
    ("api", [
      "What is REST?",
      "Explain difference between GET and POST."]),
    ("sql", [
      "Explain joins.",
      "What is normalization?"]),
    ("django", [
      "What is Django ORM?",
      "Explain middleware in Django."]),
    ("flask", [
      "What is Flask routing?",
      "How to handle session in Flask?"])
  ]

  /** The DATA SCIENCE / ML section of `QUESTION_BANK`. */
  const DataScienceQuestions: seq<(string, seq<string>)> := [
    ("numpy", [
      "What is broadcasting in numpy?",
      "Difference between reshape and ravel?"]),
    ("pandas", [
      "Explain groupby vs apply.",
      "How merging works in pandas?"]),
    ("statistics", [
      "What is p-value?",
      "Explain central limit theorem."]),
    ("ml", [
      "What is overfitting?",
      "Explain supervised vs unsupervised learning."]),
    ("deep learning", [
      "What is a neural network?",
      "Explain activation functions."]),
    ("nlp", [
      "What is tokenization?",
      "Explain stemming vs lemmatization."]),
    ("tensorflow", [
      "What is a tensor?",
      "Explain gradient descent."]),
    ("pytorch", [
      "What is autograd?",
      "Difference between model.eval() and model.train()?"])
  ]

  /** The WEB DEVELOPMENT section of `QUESTION_BANK`. */
  const WebDevelopmentQuestions: seq<(string, seq<string>)> := [
    ("html", [
      "What is semantic HTML?",
      "Explain difference between div and span."]),
    ("css", [
      "What is flexbox?",
      "Difference between margin and padding?"]),
    ("javascript", [
      "What is hoisting?",
      "Explain promises."]),
    ("react", [
      "How does React state work?",
      "What is virtual DOM?"]),
    ("node", [
      "What is event loop?",
      "Explain middleware concept."]),
    ("frontend", [
      "What is responsive design?",
      "Explain accessibility basics."]),
    ("backend", [
      "What is MVC?",
      "Explain authentication vs authorization."])
  ]

  /** The DevOps / Cloud section of `QUESTION_BANK`. */
  const DevOpsQuestions: seq<(string, seq<string>)> := [
    ("linux", [
      "What is chmod?",
      "Explain process vs thread in Linux."]),
    ("docker", [
      "What is containerization?",
      "Explain Dockerfile layers."]),
    ("kubernetes", [
      "What is a pod?",
      "Explain deployment vs service."]),
    ("aws", [
      "What is EC2?",
      "Explain S3 bucket lifecycle."]),
    ("azure", [
      "Explain Azure App Service.",
      "What is Azure VM scale set?"]),
    ("terraform", [
      "What is IAC (Infrastructure as Code)?",
      "Explain Terraform state files."])
  ]

  /** The UI/UX section of `QUESTION_BANK`. */
  const UiUxQuestions: seq<(string, seq<string>)> := [
    ("figma", [
      "What is auto-layout in Figma?",
      "How do components and variants work?"]),
    ("wireframing", [
      "What is low-fidelity vs high-fidelity design?",
      "Purpose of user personas?"]),
    ("ux", [
      "What is usability testing?",
      "Explain UI vs UX."])
  ]

  /** The PRODUCT MANAGEMENT section of `QUESTION_BANK`. */
  const ProductQuestions: seq<(string, seq<string>)> := [
    ("agile", [
      "Explain Scrum vs Kanban.",
      "What is sprint planning?"]),
    ("requirements", [
      "What is BRD vs FRD?",
      "Explain user stories."]),
    ("metrics", [
      "What are KPIs?",
      "What is product-market fit?"])
  ]

  /** The CYBERSECURITY section of `QUESTION_BANK`. */
  const SecurityQuestions: seq<(string, seq<string>)> := [
    ("network security", [
      "What is firewall?",
      "Explain phishing attack."]),
    ("ethical hacking", [
      "Difference between black box vs white box testing?",
      "Explain OWASP top 10."]),
    ("siem", [
      "What is SIEM?",
      "Explain incident logging."])
  ]

  /** The BUSINESS ANALYST section of `QUESTION_BANK`. */
  const AnalystQuestions: seq<(string, seq<string>)> := [
    ("excel", [
      "What are pivot tables?",
      "Explain VLOOKUP vs INDEX/MATCH."]),
    ("power bi", [
      "What is DAX?",
      "Explain page filters vs report filters."]),
    ("tableau", [
      "What is calculated field?",
      "Explain dashboards vs worksheets."])
  ]

  /** The DIGITAL MARKETING section of `QUESTION_BANK`. */
  const MarketingQuestions: seq<(string, seq<string>)> := [
    ("seo", [
      "What is on-page SEO?",
      "Explain keyword density."]),
    ("google ads", [
      "Explain CPC vs CPM.",
      "How does Quality Score work?"]),
    ("social media marketing", [
      "What is engagement rate?",
      "Difference between organic vs paid reach?"])
  ]

  /** The HR / Talent Acquisition section of `QUESTION_BANK`. */
  const HrQuestions: seq<(string, seq<string>)> := [
    ("recruitment", [
      "Explain end-to-end recruitment lifecycle.",
      "What is competency-based interviewing?"]),
    ("ats", [
      "What is Applicant Tracking System?",
      "How do resume scoring algorithms work?"]),
    ("onboarding", [
      "Explain employee onboarding process.",
      "Difference between HRBP vs Recruiter?"])
  ]

  /** `QUESTION_BANK`: its sections in declaration order. */
  const QuestionBank: seq<(string, seq<string>)> :=
    SoftwareQuestions + DataScienceQuestions + WebDevelopmentQuestions + DevOpsQuestions + UiUxQuestions + ProductQuestions + SecurityQuestions + AnalystQuestions + MarketingQuestions + HrQuestions

  /** The first entry at or after `from` whose key is `key`, as a dict lookup finds it. */
  function LookupFrom(table: seq<(string, seq<string>)>, key: string, from: nat): (r: Option<seq<string>>)
    ensures r.Some? ==> exists i :: from <= i < |table| && table[i] == (key, r.value)
    ensures r.None? ==> forall i :: from <= i < |table| ==> table[i].0 != key
    decreases |table| - from
  {
    if from >= |table| then None
    else if table[from].0 == key then Some(table[from].1)
    else LookupFrom(table, key, from + 1)
  }

  /** Searching two tables one after the other is searching the first, then the second. */
  lemma {:induction false} LookupAppend(a: seq<(string, seq<string>)>, b: seq<(string, seq<string>)>, key: string, from: nat)
    requires from <= |a|
    ensures LookupFrom(a + b, key, from)
         == (if LookupFrom(a, key, from).Some? then LookupFrom(a, key, from) else LookupFrom(b, key, 0))
    decreases |a| - from
  {
    if from < |a| {
      assert (a + b)[from] == a[from];
      LookupAppend(a, b, key, from + 1);
    } else {
      LookupShift(a, b, key, 0);
    }
  }

  lemma {:induction false} LookupShift(a: seq<(string, seq<string>)>, b: seq<(string, seq<string>)>, key: string, from: nat)
    requires from <= |b|
    ensures LookupFrom(a + b, key, |a| + from) == LookupFrom(b, key, from)
    decreases |b| - from
  {
    if from < |b| {
      assert (a + b)[|a| + from] == b[from];
      LookupShift(a, b, key, from + 1);
    }
  }

  /** `QUESTION_BANK.get(key)`. */
  function BankGet(key: string): Option<seq<string>> {
    LookupFrom(QuestionBank, key, 0)
  }

  // ---------------------------------------------------------------------------
  // Bank keys
  // ---------------------------------------------------------------------------

  /** The keys of a bank table, in table order. */
  function Keys(table: seq<(string, seq<string>)>): (r: seq<string>)
    ensures |r| == |table|
    ensures forall i :: 0 <= i < |table| ==> r[i] == table[i].0
  {
    seq(|table|, i requires 0 <= i < |table| => table[i].0)
  }

  lemma KeysAppend(a: seq<(string, seq<string>)>, b: seq<(string, seq<string>)>)
    ensures Keys(a + b) == Keys(a) + Keys(b)
  {
  }

  lemma SoftwareQuestionsKeys()
    ensures Keys(SoftwareQuestions) == ["python", "java", "c++", "oop", "dsa", "git", "api", "sql", "django", "flask"]
  {
  }

  lemma DataScienceQuestionsKeys()
    ensures Keys(DataScienceQuestions) == ["numpy", "pandas", "statistics", "ml", "deep learning", "nlp", "tensorflow", "pytorch"]
  {
  }

  lemma WebDevelopmentQuestionsKeys()
    ensures Keys(WebDevelopmentQuestions) == ["html", "css", "javascript", "react", "node", "frontend", "backend"]
  {
  }

  lemma DevOpsQuestionsKeys()
    ensures Keys(DevOpsQuestions) == ["linux", "docker", "kubernetes", "aws", "azure", "terraform"]
  {
  }

  lemma UiUxQuestionsKeys()
    ensures Keys(UiUxQuestions) == ["figma", "wireframing", "ux"]
  {
  }

  lemma ProductQuestionsKeys()
    ensures Keys(ProductQuestions) == ["agile", "requirements", "metrics"]
  {
  }

  lemma SecurityQuestionsKeys()
    ensures Keys(SecurityQuestions) == ["network security", "ethical hacking", "siem"]
  {
  }

  lemma AnalystQuestionsKeys()
    ensures Keys(AnalystQuestions) == ["excel", "power bi", "tableau"]
  {
  }

  lemma MarketingQuestionsKeys()
    ensures Keys(MarketingQuestions) == ["seo", "google ads", "social media marketing"]
  {
  }

  lemma HrQuestionsKeys()
    ensures Keys(HrQuestions) == ["recruitment", "ats", "onboarding"]
  {
  }

  /** No element of `a` occurs in `b`. */
  predicate Disjoint(a: seq<string>, b: seq<string>) {
    forall i, j :: 0 <= i < |a| && 0 <= j < |b| ==> a[i] != b[j]
  }

  lemma DistinctAppend(a: seq<string>, b: seq<string>)
    requires Distinct(a) && Distinct(b) && Disjoint(a, b)
    ensures Distinct(a + b)
  {
  }

  /** Appending a section with new, distinct keys keeps the table's keys distinct. */
  lemma DistinctKeysAppend(p: seq<(string, seq<string>)>, s: seq<(string, seq<string>)>)
    requires Distinct(Keys(p)) && Distinct(Keys(s)) && Disjoint(Keys(p), Keys(s))
    ensures Keys(p + s) == Keys(p) + Keys(s)
    ensures Distinct(Keys(p + s))
  {
    KeysAppend(p, s);
    DistinctAppend(Keys(p), Keys(s));
  }

  lemma SoftwareQuestionsKeysNew()
    ensures Distinct(["python", "java", "c++", "oop", "dsa", "git", "api", "sql", "django", "flask"])
  {
  }

  lemma DataScienceQuestionsKeysNew()
    ensures Distinct(["numpy", "pandas", "statistics", "ml", "deep learning", "nlp", "tensorflow", "pytorch"])
    ensures Disjoint(["python", "java", "c++", "oop", "dsa", "git", "api", "sql", "django", "flask"], ["numpy", "pandas", "statistics", "ml", "deep learning", "nlp", "tensorflow", "pytorch"])
  {
  }

  lemma WebDevelopmentQuestionsKeysNew()
    ensures Distinct(["html", "css", "javascript", "react", "node", "frontend", "backend"])
    ensures Disjoint(["python", "java", "c++", "oop", "dsa", "git", "api", "sql", "django", "flask"] + ["numpy", "pandas", "statistics", "ml", "deep learning", "nlp", "tensorflow", "pytorch"], ["html", "css", "javascript", "react", "node", "frontend", "backend"])
  {
  }

  lemma DevOpsQuestionsKeysNew()
    ensures Distinct(["linux", "docker", "kubernetes", "aws", "azure", "terraform"])
    ensures Disjoint(["python", "java", "c++", "oop", "dsa", "git", "api", "sql", "django", "flask"] + ["numpy", "pandas", "statistics", "ml", "deep learning", "nlp", "tensorflow", "pytorch"] + ["html", "css", "javascript", "react", "node", "frontend", "backend"], ["linux", "docker", "kubernetes", "aws", "azure", "terraform"])
  {
  }

  lemma UiUxQuestionsKeysNew()
    ensures Distinct(["figma", "wireframing", "ux"])
    ensures Disjoint(["python", "java", "c++", "oop", "dsa", "git", "api", "sql", "django", "flask"] + ["numpy", "pandas", "statistics", "ml", "deep learning", "nlp", "tensorflow", "pytorch"] + ["html", "css", "javascript", "react", "node", "frontend", "backend"] + ["linux", "docker", "kubernetes", "aws", "azure", "terraform"], ["figma", "wireframing", "ux"])
  {
  }

  lemma ProductQuestionsKeysNew()
    ensures Distinct(["agile", "requirements", "metrics"])
    ensures Disjoint(["python", "java", "c++", "oop", "dsa", "git", "api", "sql", "django", "flask"] + ["numpy", "pandas", "statistics", "ml", "deep learning", "nlp", "tensorflow", "pytorch"] + ["html", "css", "javascript", "react", "node", "frontend", "backend"] + ["linux", "docker", "kubernetes", "aws", "azure", "terraform"] + ["figma", "wireframing", "ux"], ["agile", "requirements", "metrics"])
  {
  }

  lemma SecurityQuestionsKeysNew()
    ensures Distinct(["network security", "ethical hacking", "siem"])
    ensures Disjoint(["python", "java", "c++", "oop", "dsa", "git", "api", "sql", "django", "flask"] + ["numpy", "pandas", "statistics", "ml", "deep learning", "nlp", "tensorflow", "pytorch"] + ["html", "css", "javascript", "react", "node", "frontend", "backend"] + ["linux", "docker", "kubernetes", "aws", "azure", "terraform"] + ["figma", "wireframing", "ux"] + ["agile", "requirements", "metrics"], ["network security", "ethical hacking", "siem"])
  {
  }

  lemma AnalystQuestionsKeysNew()
    ensures Distinct(["excel", "power bi", "tableau"])
    ensures Disjoint(["python", "java", "c++", "oop", "dsa", "git", "api", "sql", "django", "flask"] + ["numpy", "pandas", "statistics", "ml", "deep learning", "nlp", "tensorflow", "pytorch"] + ["html", "css", "javascript", "react", "node", "frontend", "backend"] + ["linux", "docker", "kubernetes", "aws", "azure", "terraform"] + ["figma", "wireframing", "ux"] + ["agile", "requirements", "metrics"] + ["network security", "ethical hacking", "siem"], ["excel", "power bi", "tableau"])
  {
  }

  lemma MarketingQuestionsKeysNew()
    ensures Distinct(["seo", "google ads", "social media marketing"])
    ensures Disjoint(["python", "java", "c++", "oop", "dsa", "git", "api", "sql", "django", "flask"] + ["numpy", "pandas", "statistics", "ml", "deep learning", "nlp", "tensorflow", "pytorch"] + ["html", "css", "javascript", "react", "node", "frontend", "backend"] + ["linux", "docker", "kubernetes", "aws", "azure", "terraform"] + ["figma", "wireframing", "ux"] + ["agile", "requirements", "metrics"] + ["network security", "ethical hacking", "siem"] + ["excel", "power bi", "tableau"], ["seo", "google ads", "social media marketing"])
  {
  }

  lemma HrQuestionsKeysNew()
    ensures Distinct(["recruitment", "ats", "onboarding"])
    ensures Disjoint(["python", "java", "c++", "oop", "dsa", "git", "api", "sql", "django", "flask"] + ["numpy", "pandas", "statistics", "ml", "deep learning", "nlp", "tensorflow", "pytorch"] + ["html", "css", "javascript", "react", "node", "frontend", "backend"] + ["linux", "docker", "kubernetes", "aws", "azure", "terraform"] + ["figma", "wireframing", "ux"] + ["agile", "requirements", "metrics"] + ["network security", "ethical hacking", "siem"] + ["excel", "power bi", "tableau"] + ["seo", "google ads", "social media marketing"], ["recruitment", "ats", "onboarding"])
  {
  }

  /**
   The bank's keys are pairwise different, so the dict keeps every entry and
   a first-match lookup finds the only entry there is for a key.
   */
  lemma BankKeysDistinct()
    ensures Distinct(Keys(QuestionBank))
  {
    SoftwareQuestionsKeys();
    SoftwareQuestionsKeysNew();
    DataScienceQuestionsKeys();
    DataScienceQuestionsKeysNew();
    DistinctKeysAppend(SoftwareQuestions, DataScienceQuestions);
    WebDevelopmentQuestionsKeys();
    WebDevelopmentQuestionsKeysNew();
    DistinctKeysAppend(SoftwareQuestions + DataScienceQuestions, WebDevelopmentQuestions);
    DevOpsQuestionsKeys();
    DevOpsQuestionsKeysNew();
    DistinctKeysAppend(SoftwareQuestions + DataScienceQuestions + WebDevelopmentQuestions, DevOpsQuestions);
    UiUxQuestionsKeys();
    UiUxQuestionsKeysNew();
    DistinctKeysAppend(SoftwareQuestions + DataScienceQuestions + WebDevelopmentQuestions + DevOpsQuestions, UiUxQuestions);
    ProductQuestionsKeys();
    ProductQuestionsKeysNew();
    DistinctKeysAppend(SoftwareQuestions + DataScienceQuestions + WebDevelopmentQuestions + DevOpsQuestions + UiUxQuestions, ProductQuestions);
    SecurityQuestionsKeys();
    SecurityQuestionsKeysNew();
    DistinctKeysAppend(SoftwareQuestions + DataScienceQuestions + WebDevelopmentQuestions + DevOpsQuestions + UiUxQuestions + ProductQuestions, SecurityQuestions);
    AnalystQuestionsKeys();
    AnalystQuestionsKeysNew();
    DistinctKeysAppend(SoftwareQuestions + DataScienceQuestions + WebDevelopmentQuestions + DevOpsQuestions + UiUxQuestions + ProductQuestions + SecurityQuestions, AnalystQuestions);
    MarketingQuestionsKeys();
    MarketingQuestionsKeysNew();
    DistinctKeysAppend(SoftwareQuestions + DataScienceQuestions + WebDevelopmentQuestions + DevOpsQuestions + UiUxQuestions + ProductQuestions + SecurityQuestions + AnalystQuestions, MarketingQuestions);
    HrQuestionsKeys();
    HrQuestionsKeysNew();
    DistinctKeysAppend(SoftwareQuestions + DataScienceQuestions + WebDevelopmentQuestions + DevOpsQuestions + UiUxQuestions + ProductQuestions + SecurityQuestions + AnalystQuestions + MarketingQuestions, HrQuestions);
    assert QuestionBank == SoftwareQuestions + DataScienceQuestions + WebDevelopmentQuestions + DevOpsQuestions + UiUxQuestions + ProductQuestions + SecurityQuestions + AnalystQuestions + MarketingQuestions + HrQuestions;
  }

  /** `QUESTION_BANK[key]` for every entry of the literal: each key maps to its own questions. */
  lemma BankGetEntry(i: nat)
    requires i < |QuestionBank|
    ensures BankGet(QuestionBank[i].0) == Some(QuestionBank[i].1)
  {
    BankKeysDistinct();
    var r := BankGet(QuestionBank[i].0);
    var j :| 0 <= j < |QuestionBank| && QuestionBank[j] == (QuestionBank[i].0, r.value);
    assert Keys(QuestionBank)[j] == Keys(QuestionBank)[i];
  }

  /** `QUESTION_BANK.get(key, [])`. */
  function BankQuestionsFor(key: string): seq<string> {
    BankGet(key).GetOr([])
  }

  /** Every entry of a bank section has a lower-case key and at least one question. */
  predicate WellFormedBank(table: seq<(string, seq<string>)>) {
    forall i :: 0 <= i < |table| ==> IsLowercase(table[i].0) && |table[i].1| > 0
  }

  lemma SoftwareQuestionsShape()
    ensures WellFormedBank(SoftwareQuestions)
  {
    forall i | 0 <= i < |SoftwareQuestions| ensures IsLowercase(SoftwareQuestions[i].0) && |SoftwareQuestions[i].1| > 0 {
      if i < 4 {} else if i < 8 {} else {}
    }
  }

  lemma DataScienceQuestionsShape()
    ensures WellFormedBank(DataScienceQuestions)
  {
    forall i | 0 <= i < |DataScienceQuestions| ensures IsLowercase(DataScienceQuestions[i].0) && |DataScienceQuestions[i].1| > 0 {
      if i < 4 {} else {}
    }
  }

  lemma WebDevelopmentQuestionsShape()
    ensures WellFormedBank(WebDevelopmentQuestions)
  {
    forall i | 0 <= i < |WebDevelopmentQuestions| ensures IsLowercase(WebDevelopmentQuestions[i].0) && |WebDevelopmentQuestions[i].1| > 0 {
      if i < 4 {} else {}
    }
  }

  lemma DevOpsQuestionsShape()
    ensures WellFormedBank(DevOpsQuestions)
  {
    forall i | 0 <= i < |DevOpsQuestions| ensures IsLowercase(DevOpsQuestions[i].0) && |DevOpsQuestions[i].1| > 0 {
      if i < 4 {} else {}
    }
  }

  lemma UiUxQuestionsShape()
    ensures WellFormedBank(UiUxQuestions)
  {
    forall i | 0 <= i < |UiUxQuestions| ensures IsLowercase(UiUxQuestions[i].0) && |UiUxQuestions[i].1| > 0 {
      {}
    }
  }

  lemma ProductQuestionsShape()
    ensures WellFormedBank(ProductQuestions)
  {
    forall i | 0 <= i < |ProductQuestions| ensures IsLowercase(ProductQuestions[i].0) && |ProductQuestions[i].1| > 0 {
      {}
    }
  }

  lemma SecurityQuestionsShape()
    ensures WellFormedBank(SecurityQuestions)
  {
    forall i | 0 <= i < |SecurityQuestions| ensures IsLowercase(SecurityQuestions[i].0) && |SecurityQuestions[i].1| > 0 {
      {}
    }
  }

  lemma AnalystQuestionsShape()
    ensures WellFormedBank(AnalystQuestions)
  {
    forall i | 0 <= i < |AnalystQuestions| ensures IsLowercase(AnalystQuestions[i].0) && |AnalystQuestions[i].1| > 0 {
      {}
    }
  }

  lemma MarketingQuestionsShape()
    ensures WellFormedBank(MarketingQuestions)
  {
    forall i | 0 <= i < |MarketingQuestions| ensures IsLowercase(MarketingQuestions[i].0) && |MarketingQuestions[i].1| > 0 {
      {}
    }
  }

  lemma HrQuestionsShape()
    ensures WellFormedBank(HrQuestions)
  {
    forall i | 0 <= i < |HrQuestions| ensures IsLowercase(HrQuestions[i].0) && |HrQuestions[i].1| > 0 {
      {}
    }
  }

  lemma WellFormedBankAppend(a: seq<(string, seq<string>)>, b: seq<(string, seq<string>)>)
    requires WellFormedBank(a) && WellFormedBank(b)
    ensures WellFormedBank(a + b)
  {
    forall i | 0 <= i < |a + b| ensures IsLowercase((a + b)[i].0) && |(a + b)[i].1| > 0 {
      if i >= |a| {
        assert (a + b)[i] == b[i - |a|];
      }
    }
  }

  /**
   Every key of the question bank is lower-case and every entry is a non-empty
   list of questions.
   */
  lemma BankWellFormed(key: string)
    ensures BankGet(key).Some? ==> IsLowercase(key) && |BankGet(key).value| > 0
  {
    SoftwareQuestionsShape();
    DataScienceQuestionsShape();
    WellFormedBankAppend(SoftwareQuestions, DataScienceQuestions);
    WebDevelopmentQuestionsShape();
    WellFormedBankAppend(SoftwareQuestions + DataScienceQuestions, WebDevelopmentQuestions);
    DevOpsQuestionsShape();
    WellFormedBankAppend(SoftwareQuestions + DataScienceQuestions + WebDevelopmentQuestions, DevOpsQuestions);
    UiUxQuestionsShape();
    WellFormedBankAppend(SoftwareQuestions + DataScienceQuestions + WebDevelopmentQuestions + DevOpsQuestions, UiUxQuestions);
    ProductQuestionsShape();
    WellFormedBankAppend(SoftwareQuestions + DataScienceQuestions + WebDevelopmentQuestions + DevOpsQuestions + UiUxQuestions, ProductQuestions);
    SecurityQuestionsShape();
    WellFormedBankAppend(SoftwareQuestions + DataScienceQuestions + WebDevelopmentQuestions + DevOpsQuestions + UiUxQuestions + ProductQuestions, SecurityQuestions);
    AnalystQuestionsShape();
    WellFormedBankAppend(SoftwareQuestions + DataScienceQuestions + WebDevelopmentQuestions + DevOpsQuestions + UiUxQuestions + ProductQuestions + SecurityQuestions, AnalystQuestions);
    MarketingQuestionsShape();
    WellFormedBankAppend(SoftwareQuestions + DataScienceQuestions + WebDevelopmentQuestions + DevOpsQuestions + UiUxQuestions + ProductQuestions + SecurityQuestions + AnalystQuestions, MarketingQuestions);
    HrQuestionsShape();
    WellFormedBankAppend(SoftwareQuestions + DataScienceQuestions + WebDevelopmentQuestions + DevOpsQuestions + UiUxQuestions + ProductQuestions + SecurityQuestions + AnalystQuestions + MarketingQuestions, HrQuestions);
    assert QuestionBank == SoftwareQuestions + DataScienceQuestions + WebDevelopmentQuestions + DevOpsQuestions + UiUxQuestions + ProductQuestions + SecurityQuestions + AnalystQuestions + MarketingQuestions + HrQuestions;
  }

  /** A key found in the first of two tables is found there in the joined table too. */
  lemma LookupPrefix(a: seq<(string, seq<string>)>, b: seq<(string, seq<string>)>, key: string)
    requires LookupFrom(a, key, 0).Some?
    ensures LookupFrom(a + b, key, 0) == LookupFrom(a, key, 0)
  {
    LookupAppend(a, b, key, 0);
  }

  /** The question bank holds entries for "ml" and "requirements". */
  lemma BankHasUnusedKeys()
    ensures BankGet("ml").Some? && BankGet("requirements").Some?
  {
    var ml := "ml";
    var req := "requirements";
    var a := SoftwareQuestions + DataScienceQuestions;
    LookupAppend(SoftwareQuestions, DataScienceQuestions, ml, 0);
    var b := a + WebDevelopmentQuestions + DevOpsQuestions + UiUxQuestions + ProductQuestions;
    LookupAppend(a + WebDevelopmentQuestions + DevOpsQuestions + UiUxQuestions, ProductQuestions, req, 0);
    assert LookupFrom(b, req, 0).Some?;
    LookupPrefix(a, WebDevelopmentQuestions, ml);
    LookupPrefix(a + WebDevelopmentQuestions, DevOpsQuestions, ml);
    LookupPrefix(a + WebDevelopmentQuestions + DevOpsQuestions, UiUxQuestions, ml);
    LookupPrefix(a + WebDevelopmentQuestions + DevOpsQuestions + UiUxQuestions, ProductQuestions, ml);
    var c := b;
    LookupPrefix(c, SecurityQuestions, ml);
    LookupPrefix(c, SecurityQuestions, req);
    c := c + SecurityQuestions;
    LookupPrefix(c, AnalystQuestions, ml);
    LookupPrefix(c, AnalystQuestions, req);
    c := c + AnalystQuestions;
    LookupPrefix(c, MarketingQuestions, ml);
    LookupPrefix(c, MarketingQuestions, req);
    c := c + MarketingQuestions;
    LookupPrefix(c, HrQuestions, ml);
    LookupPrefix(c, HrQuestions, req);
    c := c + HrQuestions;
    assert c == QuestionBank;
  }

  /**
   The bank keys "ml" and "requirements" name no skill of any domain, so the
   skill-driven lookups never reach their questions.
   */
  lemma UnreachableBankKeys(domain: string, skill: string)
    requires skill in SkillsFor(domain)
    ensures BankGet("ml").Some? && BankGet("requirements").Some?
    ensures Lower(skill) != "ml" && Lower(skill) != "requirements"
  {
    BankHasUnusedKeys();
    DomainSkillsWellFormed(domain);
    SkillLowerIsIdentity(domain, skill);
  }
}

=== FILE: skill_match.dfy ===
/**
 Skill matching: a domain's skill list split, in order, into the skills the
 resume shows and the skills it lacks.  Three matchers share the split: the
 substring matcher of the web application and of the inference layer, and the
 token-set matcher of the NLP engine (whose tokenizer is left abstract: the
 token set is a parameter).
 */
module SkillMatch {
  import opened Text
  import opened SkillConfig

  /** `a` can be obtained from `b` by deleting elements. */
  predicate IsSubseq(a: seq<string>, b: seq<string>)
    decreases |b|
  {
    if |a| == 0 then true
    else if |b| == 0 then false
    else if a[|a| - 1] == b[|b| - 1] then IsSubseq(a[..|a| - 1], b[..|b| - 1])
    else IsSubseq(a, b[..|b| - 1])
  }

  /** A subsequence stays one when an element is added at the end. */
  lemma {:induction false} IsSubseqSnoc(a: seq<string>, b: seq<string>, x: string)
    requires IsSubseq(a, b)
    ensures IsSubseq(a, b + [x])
    decreases |b|, 1
  {
    if |a| > 0 {
      assert (b + [x])[..|b|] == b;
      if a[|a| - 1] == x {
        IsSubseqDropLast(a, b);
      }
    }
  }

  /** Deleting the last element of a subsequence leaves a subsequence. */
  lemma {:induction false} IsSubseqDropLast(a: seq<string>, b: seq<string>)
    requires |a| > 0 && IsSubseq(a, b)
    ensures IsSubseq(a[..|a| - 1], b)
    decreases |b|, 0
  {
    var a' := a[..|a| - 1];
    var b' := b[..|b| - 1];
    assert b' + [b[|b| - 1]] == b;
    if |a'| > 0 {
      if a[|a| - 1] == b[|b| - 1] {
        IsSubseqSnoc(a', b', b[|b| - 1]);
      } else {
        IsSubseqDropLast(a, b');
        IsSubseqSnoc(a', b', b[|b| - 1]);
      }
    }
  }

  /**
   The loop of the three `detect_skills` functions: walk the list once and
   append each element to `found` or `missing` according to `keep`.
   */
  function Split(xs: seq<string>, keep: string -> bool): (r: (seq<string>, seq<string>))
    ensures |r.0| + |r.1| == |xs|
    ensures multiset(r.0) + multiset(r.1) == multiset(xs)
    ensures forall x :: x in r.0 <==> x in xs && keep(x)
    ensures forall x :: x in r.1 <==> x in xs && !keep(x)
    ensures IsSubseq(r.0, xs) && IsSubseq(r.1, xs)
    decreases |xs|
  {
    if |xs| == 0 then ([], [])
    else
      var init := xs[..|xs| - 1];
      var x := xs[|xs| - 1];
      assert xs == init + [x];
      var prev := Split(init, keep);
      IsSubseqSnoc(prev.0, init, x);
      IsSubseqSnoc(prev.1, init, x);
      assert (prev.0 + [x])[..|prev.0|] == prev.0;
      assert (prev.1 + [x])[..|prev.1|] == prev.1;
      if keep(x) then (prev.0 + [x], prev.1) else (prev.0, prev.1 + [x])
  }

  // ---------------------------------------------------------------------------
  // Substring matcher (web application and inference layer)
  // ---------------------------------------------------------------------------

  /** `skill.lower() in resume_text.lower()`. */
  function MentionsSkill(text: string): string -> bool {
    skill => Contains(Lower(text), Lower(skill))
  }

  /**
   `detect_skills(resume_text, domain)`: the domain's skills split into found
   and missing, each in list order; a skill is found exactly when it occurs in
   the lower-cased text; an unknown domain has neither.
   */
  function DetectSkills(text: string, domain: string): (r: (seq<string>, seq<string>))
    ensures forall s :: s in r.0 <==> s in SkillsFor(domain) && Contains(Lower(text), s)
    ensures forall s :: s in r.1 <==> s in SkillsFor(domain) && !Contains(Lower(text), s)
    ensures IsSubseq(r.0, SkillsFor(domain)) && IsSubseq(r.1, SkillsFor(domain))
    ensures multiset(r.0) + multiset(r.1) == multiset(SkillsFor(domain))
    ensures |r.0| + |r.1| == |SkillsFor(domain)|
    ensures DomainSkills(domain).None? ==> r == ([], [])
  {
    forall s | s in SkillsFor(domain) ensures Lower(s) == s {
      SkillLowerIsIdentity(domain, s);
    }
    Split(SkillsFor(domain), MentionsSkill(text))
  }

  /** The split computed by a loop that grows both lists at the end. */
  method SplitLoop(xs: seq<string>, keep: string -> bool) returns (found: seq<string>, missing: seq<string>)
    ensures (found, missing) == Split(xs, keep)
  {
    found, missing := [], [];
    var i := 0;
    while i < |xs|
      invariant i <= |xs|
      invariant (found, missing) == Split(xs[..i], keep)
    {
      assert xs[..i + 1][..i] == xs[..i];
      if keep(xs[i]) {
        found := found + [xs[i]];
      } else {
        missing := missing + [xs[i]];
      }
      i := i + 1;
    }
    assert xs[..i] == xs;
  }

  /**
   `detect_skills` as written in the inference layer, a loop over the domain's
   list; it computes exactly what `DetectSkills` does.
   */
  method DetectSkillsLoop(text: string, domain: string) returns (found: seq<string>, missing: seq<string>)
    ensures (found, missing) == DetectSkills(text, domain)
  {
    found, missing := SplitLoop(SkillsFor(domain), MentionsSkill(text));
  }

  /** The share of the domain's skills that were found: `len(found) / len(skills)`, 0 for no skills. */
  function RuleScore(found: seq<string>, missing: seq<string>): (r: real)
    ensures 0.0 <= r <= 1.0
    ensures |found| + |missing| == 0 ==> r == 0.0
    ensures |missing| == 0 && |found| > 0 ==> r == 1.0
    ensures |found| == 0 ==> r == 0.0
    ensures |found| + |missing| > 0 ==> r * ((|found| + |missing|) as real) == |found| as real
  {
    var total := |found| + |missing|;
    if total > 0 then (|found| as real) / (total as real) else 0.0
  }

  // ---------------------------------------------------------------------------
  // Token-set matcher (NLP engine)
  // ---------------------------------------------------------------------------

  /** The spellings of a skill looked for among the tokens. */
  function SkillVariants(skill: string): (r: set<string>)
    ensures Lower(skill) in r
    ensures forall v | v in r :: v == Lower(skill) || v == RemoveSpaces(Lower(skill))
  {
    {Lower(skill), RemoveSpaces(Lower(skill))}
  }

  /** A skill is found when one of its spellings is a token. */
  function TokenMatch(tokens: set<string>): string -> bool {
    skill => exists v | v in SkillVariants(skill) :: v in tokens
  }

  /**
   `detect_skills_nlp(resume_text, domain_skills)` given the token set of the
   resume: a skill is found exactly when its lower-cased form, with or without
   spaces, is a token (membership, not substring).
   */
  function DetectSkillsNlp(tokens: set<string>, skills: seq<string>): (r: (seq<string>, seq<string>))
    ensures forall s :: s in r.0 <==>
      s in skills && (Lower(s) in tokens || RemoveSpaces(Lower(s)) in tokens)
    ensures forall s :: s in r.1 <==>
      s in skills && Lower(s) !in tokens && RemoveSpaces(Lower(s)) !in tokens
    ensures IsSubseq(r.0, skills) && IsSubseq(r.1, skills)
    ensures multiset(r.0) + multiset(r.1) == multiset(skills)
  {
    Split(skills, TokenMatch(tokens))
  }

  /** Lower-casing keeps a text free of spaces. */
  lemma LowerNoSpace(s: string)
    requires ' ' !in s
    ensures ' ' !in Lower(s)
  {
    forall i | 0 <= i < |s| ensures Lower(s)[i] != ' ' {
      assert s[i] != ' ';
    }
  }

  /** For a one-word skill both spellings are the same. */
  lemma SingleWordVariant(skill: string)
    requires ' ' !in skill
    ensures SkillVariants(skill) == {Lower(skill)}
  {
    LowerNoSpace(skill);
  }

  /** More tokens never turn a found skill into a missing one. */
  lemma NlpMonotoneInTokens(small: set<string>, large: set<string>, skills: seq<string>, s: string)
    requires small <= large
    requires s in DetectSkillsNlp(small, skills).0
    ensures s in DetectSkillsNlp(large, skills).0
  {
  }
}

=== FILE: text.dfy ===
/**
 The Python string operations the pipeline relies on, stated over `seq<char>`:
 `str.isspace`, `str.lower`, `in` (substring), `startswith`, `strip`, `split()`,
 `splitlines`, `"sep".join` and slicing.  Case mapping, `isalpha` and `isdigit`
 are modelled for ASCII only.
 */
module Text {
  import opened Wrappers

  // ---------------------------------------------------------------------------
  // Character classes
  // ---------------------------------------------------------------------------

  /** Python's `str.isspace` for one character: the full Unicode whitespace set. */
  predicate IsSpace(c: char) {
    || c == ' '
    || ('\t' <= c <= '\r')
    || ('\U{1C}' <= c <= '\U{1F}')
    || c == '\U{85}' || c == '\U{A0}' || c == '\U{1680}'
    || ('\U{2000}' <= c <= '\U{200A}')
    || c == '\U{2028}' || c == '\U{2029}' || c == '\U{202F}' || c == '\U{205F}' || c == '\U{3000}'
  }

  /** The characters at which Python's `str.splitlines` ends a line. */
  predicate IsLineBreak(c: char) {
    || c == '\n' || c == '\r' || c == '\U{0B}' || c == '\U{0C}'
    || ('\U{1C}' <= c <= '\U{1E}')
    || c == '\U{85}' || c == '\U{2028}' || c == '\U{2029}'
  }

  predicate IsDigit(c: char) { '0' <= c <= '9' }

  predicate IsUpper(c: char) { 'A' <= c <= 'Z' }

  predicate IsAlpha(c: char) { IsUpper(c) || ('a' <= c <= 'z') }

  function LowerChar(c: char): char {
    if IsUpper(c) then (c as int + 32) as char else c
  }

  /** No element of `xs` occurs twice. */
  predicate Distinct(xs: seq<string>) {
    forall i, j :: 0 <= i < j < |xs| ==> xs[i] != xs[j]
  }

  // ---------------------------------------------------------------------------
  // Case mapping
  // ---------------------------------------------------------------------------

  /** Python's `s.lower()`. */
  function Lower(s: string): (r: string)
    ensures |r| == |s|
    ensures forall i :: 0 <= i < |s| ==> r[i] == LowerChar(s[i])
  {
    seq(|s|, i requires 0 <= i < |s| => LowerChar(s[i]))
  }

  /** `s` has no upper-case letter, so `s.lower() == s`. */
  predicate IsLowercase(s: string) {
    forall i :: 0 <= i < |s| ==> !IsUpper(s[i])
  }

  lemma LowerOfLowercase(s: string)
    requires IsLowercase(s)
    ensures Lower(s) == s
  {
  }

  lemma LowerIsLowercase(s: string)
    ensures IsLowercase(Lower(s))
    ensures Lower(Lower(s)) == Lower(s)
  {
  }

  lemma LowerAppend(a: string, b: string)
    ensures Lower(a + b) == Lower(a) + Lower(b)
  {
  }

  // ---------------------------------------------------------------------------
  // Substrings
  // ---------------------------------------------------------------------------

  /** `sub` occurs in `s` starting at index `i`. */
  predicate OccursAt(s: string, sub: string, i: int) {
    0 <= i && i + |sub| <= |s| && s[i..i + |sub|] == sub
  }

  /** `s.find(sub, from)`: the first index at or after `from` where `sub` occurs. */
  function FindFrom(s: string, sub: string, from: nat): (r: Option<nat>)
    ensures r.Some? ==> from <= r.value && OccursAt(s, sub, r.value)
    ensures r.Some? ==> forall j :: from <= j < r.value ==> !OccursAt(s, sub, j)
    ensures r.None? ==> forall j :: from <= j ==> !OccursAt(s, sub, j)
    decreases |s| - from
  {
    if from + |sub| > |s| then None
    else if s[from..from + |sub|] == sub then Some(from)
    else FindFrom(s, sub, from + 1)
  }

  /** Python's `sub in s`. */
  function Contains(s: string, sub: string): (b: bool)
    ensures b <==> exists i :: OccursAt(s, sub, i)
  {
    FindFrom(s, sub, 0).Some?
  }

  /** A text without the first character of `sub` does not contain `sub`. */
  lemma NotContainsByFirstChar(s: string, sub: string)
    requires |sub| > 0 && sub[0] !in s
    ensures !Contains(s, sub)
  {
    forall i | 0 <= i && i + |sub| <= |s| ensures !OccursAt(s, sub, i) {
      assert s[i..i + |sub|][0] == s[i] != sub[0];
    }
  }

  /** A substring of `b` stays a substring once text is added on either side. */
  lemma ContainsExtend(a: string, b: string, c: string, sub: string)
    requires Contains(b, sub)
    ensures Contains(a + b + c, sub)
  {
    var i :| OccursAt(b, sub, i);
    assert (a + b + c)[|a| + i..|a| + i + |sub|] == b[i..i + |sub|];
    assert OccursAt(a + b + c, sub, |a| + i);
  }

  lemma ContainsAppend(a: string, b: string, sub: string)
    requires Contains(a, sub)
    ensures Contains(a + b, sub)
  {
    ContainsExtend([], a, b, sub);
    assert [] + a + b == a + b;
  }

  /** Python's `s.startswith(p)`. */
  predicate StartsWith(s: string, p: string) {
    |p| <= |s| && s[..|p|] == p
  }

  /** Python's `s.startswith(tuple_of_prefixes)`. */
  predicate StartsWithAny(s: string, ps: seq<string>) {
    exists p | p in ps :: StartsWith(s, p)
  }

  /** A text cannot start with a prefix whose first character differs from its own. */
  lemma StartsWithNoneByFirstChar(s: string, ps: seq<string>)
    requires |s| > 0
    requires forall k :: 0 <= k < |ps| ==> |ps[k]| > 0 && ps[k][0] != s[0]
    ensures !StartsWithAny(s, ps)
  {
    forall p | p in ps ensures !StartsWith(s, p) {
    }
  }

  /** The index of the first occurrence of `c`, if any. */
  function IndexOf(s: string, c: char): (r: Option<nat>)
    ensures r.Some? ==> r.value < |s| && s[r.value] == c && c !in s[..r.value]
    ensures r.None? ==> c !in s
  {
    if |s| == 0 then None
    else if s[0] == c then Some(0)
    else match IndexOf(s[1..], c)
      case Some(i) => Some(i + 1)
      case None => None
  }

  /** The index of the last occurrence of `c`, if any. */
  function LastIndexOf(s: string, c: char): (r: Option<nat>)
    ensures r.Some? ==> r.value < |s| && s[r.value] == c && c !in s[r.value + 1..]
    ensures r.None? ==> c !in s
  {
    if |s| == 0 then None
    else if s[|s| - 1] == c then Some(|s| - 1)
    else LastIndexOf(s[..|s| - 1], c)
  }

  /** Python's `s.replace(" ", "")`. */
  function RemoveSpaces(s: string): (r: string)
    ensures ' ' !in r
    ensures ' ' !in s ==> r == s
  {
    if |s| == 0 then []
    else (if s[0] == ' ' then [] else [s[0]]) + RemoveSpaces(s[1..])
  }

  /** Python's `s[:n]`. */
  function Take(s: string, n: nat): (r: string)
    ensures |r| <= n && r <= s
    ensures |s| <= n ==> r == s
  {
    if |s| <= n then s else s[..n]
  }

  // ---------------------------------------------------------------------------
  // strip() and split()
  // ---------------------------------------------------------------------------

  function StripLeft(s: string): (r: string)
    ensures |r| <= |s| && r == s[|s| - |r|..]
    ensures forall k :: 0 <= k < |s| - |r| ==> IsSpace(s[k])
    ensures |r| > 0 ==> !IsSpace(r[0])
  {
    if |s| > 0 && IsSpace(s[0]) then StripLeft(s[1..]) else s
  }

  function StripRight(s: string): (r: string)
    ensures |r| <= |s| && r == s[..|r|]
    ensures forall k :: |r| <= k < |s| ==> IsSpace(s[k])
    ensures |r| > 0 ==> !IsSpace(r[|r| - 1])
  {
    if |s| > 0 && IsSpace(s[|s| - 1]) then StripRight(s[..|s| - 1]) else s
  }

  /** The number of leading whitespace characters of `s`. */
  function LeadingSpaces(s: string): nat {
    |s| - |StripLeft(s)|
  }

  /** Python's `s.strip()`: `s` without its leading and trailing whitespace. */
  function Strip(s: string): (r: string)
    ensures LeadingSpaces(s) + |r| <= |s|
    ensures r == s[LeadingSpaces(s)..LeadingSpaces(s) + |r|]
    ensures |r| > 0 ==> !IsSpace(r[0]) && !IsSpace(r[|r| - 1])
  {
    StripRight(StripLeft(s))
  }

  /** Everything `strip` removes is whitespace. */
  lemma StripRemovesSpaces(s: string)
    ensures forall k :: 0 <= k < LeadingSpaces(s) ==> IsSpace(s[k])
    ensures forall k :: LeadingSpaces(s) + |Strip(s)| <= k < |s| ==> IsSpace(s[k])
  {
    var left := StripLeft(s);
    var i := LeadingSpaces(s);
    var r := StripRight(left);
    assert left == s[i..] && r == Strip(s);
    forall k | 0 <= k < i ensures IsSpace(s[k]) {
    }
    forall k | i + |r| <= k < |s| ensures IsSpace(s[k]) {
      assert s[k] == left[k - i];
      assert |r| <= k - i < |left|;
    }
  }

  /** `s.strip()` is empty exactly when `s` is all whitespace. */
  lemma StripBlank(s: string)
    ensures Strip(s) == [] <==> forall k :: 0 <= k < |s| ==> IsSpace(s[k])
  {
    StripRemovesSpaces(s);
    var left := StripLeft(s);
    if |left| > 0 {
      assert left[0] == s[|s| - |left|];
    }
  }

  /** A string whose first character is not whitespace strips to itself when its last is not either. */
  lemma StripUnchanged(s: string)
    requires |s| > 0 && !IsSpace(s[0]) && !IsSpace(s[|s| - 1])
    ensures Strip(s) == s
  {
  }

  /** `s` with its leading run of non-whitespace characters removed. */
  function DropWord(s: string): (r: string)
    ensures |r| <= |s| && r == s[|s| - |r|..]
    ensures |r| > 0 ==> IsSpace(r[0])
  {
    if |s| > 0 && !IsSpace(s[0]) then DropWord(s[1..]) else s
  }

  /** `len(s.split())`: the number of maximal runs of non-whitespace characters. */
  function WordCount(s: string): nat
    decreases |s|
  {
    if |s| == 0 then 0
    else if IsSpace(s[0]) then WordCount(s[1..])
    else 1 + WordCount(DropWord(s))
  }

  lemma {:induction false} DropWordNoSpace(a: string, b: string)
    requires forall k :: 0 <= k < |a| ==> !IsSpace(a[k])
    ensures DropWord(a + b) == DropWord(b)
    decreases |a|
  {
    if |a| > 0 {
      assert (a + b)[1..] == a[1..] + b;
      DropWordNoSpace(a[1..], b);
    } else {
      assert a + b == b;
    }
  }

  /** A non-empty space-free word followed by `rest` counts one word more than `rest` without its own leading word. */
  lemma WordCountCons(a: string, rest: string)
    requires |a| > 0 && forall k :: 0 <= k < |a| ==> !IsSpace(a[k])
    ensures WordCount(a + rest) == 1 + WordCount(DropWord(rest))
  {
    DropWordNoSpace(a, rest);
    assert (a + rest)[0] == a[0];
  }

  lemma WordCountSpace(b: string)
    ensures WordCount(" " + b) == WordCount(b)
  {
    assert (" " + b)[1..] == b;
  }

  lemma WordCountOne(b: string)
    requires |b| > 0 && forall k :: 0 <= k < |b| ==> !IsSpace(b[k])
    ensures WordCount(b) == 1
  {
    DropWordWhole(b);
  }

  /** A string without whitespace is one word: dropping it leaves nothing. */
  lemma {:induction false} DropWordWhole(b: string)
    requires forall k :: 0 <= k < |b| ==> !IsSpace(b[k])
    ensures DropWord(b) == []
    decreases |b|
  {
    if |b| > 0 {
      DropWordWhole(b[1..]);
    }
  }

  /** Two space-free words separated by one space make two words. */
  lemma WordCountTwo(a: string, b: string)
    requires |a| > 0 && |b| > 0
    requires forall k :: 0 <= k < |a| ==> !IsSpace(a[k])
    requires forall k :: 0 <= k < |b| ==> !IsSpace(b[k])
    ensures WordCount(a + " " + b) == 2
  {
    var rest := " " + b;
    assert a + " " + b == a + rest;
    WordCountCons(a, rest);
    assert DropWord(rest) == rest by {
      assert IsSpace(rest[0]);
    }
    calc {
      WordCount(a + rest);
      1 + WordCount(DropWord(rest));
      1 + WordCount(rest);
      { WordCountSpace(b); }
      1 + WordCount(b);
      { WordCountOne(b); }
      2;
    }
  }

  // ---------------------------------------------------------------------------
  // splitlines() and join()
  // ---------------------------------------------------------------------------

  predicate NoLineBreak(s: string) {
    forall k :: 0 <= k < |s| ==> !IsLineBreak(s[k])
  }

  /** The index of the first line-break character, or `|s|` when there is none. */
  function FirstBreak(s: string): (j: nat)
    ensures j <= |s|
    ensures NoLineBreak(s[..j])
    ensures j < |s| ==> IsLineBreak(s[j])
  {
    if |s| == 0 then 0
    else if IsLineBreak(s[0]) then 0
    else 1 + FirstBreak(s[1..])
  }

  /** `\r\n` ends a line as one break; every other break is one character. */
  function BreakWidth(s: string, j: nat): (w: nat)
    requires j < |s|
    ensures 1 <= w && j + w <= |s|
  {
    if s[j] == '\r' && j + 1 < |s| && s[j + 1] == '\n' then 2 else 1
  }

  /** Python's `s.splitlines()`: the lines of `s` without their line breaks. */
  function SplitLines(s: string): (lines: seq<string>)
    ensures forall k :: 0 <= k < |lines| ==> NoLineBreak(lines[k])
    decreases |s|
  {
    if |s| == 0 then []
    else
      var j := FirstBreak(s);
      if j == |s| then [s]
      else [s[..j]] + SplitLines(s[j + BreakWidth(s, j)..])
  }

  /** Python's `sep.join(xs)`. */
  function Join(sep: string, xs: seq<string>): string
  {
    if |xs| == 0 then []
    else if |xs| == 1 then xs[0]
    else xs[0] + sep + Join(sep, xs[1..])
  }

  /** Python's `"\n".join(lines)`. */
  function JoinLines(lines: seq<string>): string {
    Join("\n", lines)
  }

  lemma {:induction false} FirstBreakAppend(a: string, b: string)
    requires NoLineBreak(a)
    ensures FirstBreak(a + b) == |a| + FirstBreak(b)
    decreases |a|
  {
    if |a| > 0 {
      assert (a + b)[1..] == a[1..] + b;
      FirstBreakAppend(a[1..], b);
    } else {
      assert a + b == b;
    }
  }

  /**
   Joining lines with `\n` and splitting again gives the lines back, provided no
   line holds a break character and the last line is not empty (`splitlines`
   drops an empty last line).
   */
  lemma {:induction false} SplitJoinLines(lines: seq<string>)
    requires forall k :: 0 <= k < |lines| ==> NoLineBreak(lines[k])
    requires |lines| > 0 ==> lines[|lines| - 1] != []
    ensures SplitLines(JoinLines(lines)) == lines
    decreases |lines|
  {
    if |lines| == 1 {
      assert JoinLines(lines) == lines[0];
      FirstBreakAppend(lines[0], []);
      assert lines[0] + [] == lines[0];
    } else if |lines| > 1 {
      var l := lines[0];
      var rest := JoinLines(lines[1..]);
      var s := JoinLines(lines);
      assert s == l + ("\n" + rest);
      FirstBreakAppend(l, "\n" + rest);
      assert FirstBreak(s) == |l|;
      assert s[..|l|] == l;
      assert s[|l|] == '\n';
      assert s[|l| + 1..] == rest;
      SplitJoinLines(lines[1..]);
    }
  }

  /** Every element of a joined list can be found in the joined text. */
  lemma {:induction false} JoinContainsElement(sep: string, xs: seq<string>, x: string)
    requires x in xs
    ensures Contains(Join(sep, xs), x)
    decreases |xs|
  {
    if |xs| == 1 {
      assert OccursAt(Join(sep, xs), x, 0);
    } else if xs[0] == x {
      assert Join(sep, xs) == x + (sep + Join(sep, xs[1..]));
      assert OccursAt(Join(sep, xs), x, 0);
    } else {
      JoinContainsElement(sep, xs[1..], x);
      ContainsExtend(xs[0] + sep, Join(sep, xs[1..]), [], x);
      assert xs[0] + sep + Join(sep, xs[1..]) + [] == Join(sep, xs);
    }
  }
}

=== FILE: webapp.dfy ===
/**
 The analysis endpoint of the web application: upload validation, the
 per-domain course and project suggestions, the resolution of the profile
 type, the interview questions built from the bank, the profile and the
 traits, and the report that ties the stages together.  Extraction of the
 uploaded file's text, the HTTP layer and persistence are outside the model:
 the extracted text is a parameter.
 */
module WebApp {
  import opened Wrappers
  import opened Text
  import opened SkillConfig
  import opened SkillMatch
  import opened Insights
  import opened Scorer
  import opened Anonymizer
  import opened Inference

  // ---------------------------------------------------------------------------
  // Upload validation
  // ---------------------------------------------------------------------------

  const AllowedExtensions: set<string> := {"pdf", "doc", "docx"}

  /** `filename.rsplit(".", 1)[1]` for a name with a dot: the text after the last dot. */
  function Extension(filename: string): (r: Option<string>)
    ensures r.None? <==> '.' !in filename
    ensures r.Some? ==> '.' !in r.value
    ensures r.Some? ==> exists i :: 0 <= i < |filename| && filename[i] == '.' && r.value == filename[i + 1..]
  {
    match LastIndexOf(filename, '.')
    case None => None
    case Some(i) => Some(filename[i + 1..])
  }

  /** The extension is whatever follows the last dot, however many dots the stem has. */
  lemma ExtensionAfterLastDot(stem: string, ext: string)
    requires '.' !in ext
    ensures Extension(stem + "." + ext) == Some(ext)
  {
    var s := stem + "." + ext;
    var n := |stem|;
    assert s[n] == '.' && s[n + 1..] == ext;
    var r := LastIndexOf(s, '.');
    assert r.Some?;
    var i := r.value;
    assert i == n;
  }

  /** `allowed_file(filename)`: the name has a dot and its extension, lower-cased, is pdf, doc or docx. */
  function AllowedFile(filename: string): (b: bool)
    ensures b ==> '.' in filename
    ensures b ==> exists i :: 0 <= i < |filename| && filename[i] == '.' && '.' !in filename[i + 1..]
                             && Lower(filename[i + 1..]) in AllowedExtensions
  {
    match Extension(filename)
    case None => false
    case Some(ext) => Lower(ext) in AllowedExtensions
  }

  /** A name is allowed exactly when the text after its last dot is an allowed extension in any case. */
  lemma AllowedFileByExtension(stem: string, ext: string)
    requires '.' !in ext
    ensures AllowedFile(stem + "." + ext) <==> Lower(ext) in AllowedExtensions
  {
    ExtensionAfterLastDot(stem, ext);
  }

  /** Upper-case extensions pass. */
  lemma UpperCaseExtensionAllowed(stem: string)
    ensures AllowedFile(stem + "." + "PDF")
  {
    AllowedFileByExtension(stem, "PDF");
    assert Lower("PDF") == "pdf" by {
      assert Lower("PDF")[0] == 'p' && Lower("PDF")[1] == 'd' && Lower("PDF")[2] == 'f';
    }
  }

  /** Only the last extension counts: an allowed one followed by another is refused. */
  lemma LastExtensionDecides(stem: string)
    ensures !AllowedFile(stem + ".pdf" + "." + "exe")
  {
    AllowedFileByExtension(stem + ".pdf", "exe");
    LowerOfLowercase("exe");
  }

  /** The form fields the endpoint reads; a missing field is `None`. */
  datatype Upload = Upload(filename: Option<string>, domain: Option<string>)

  /** An error response: its HTTP status and its message. */
  datatype HttpError = HttpError(status: nat, message: string)

  const NoFileError: HttpError := HttpError(400, "No resume file provided.")
  const FileTypeError: HttpError := HttpError(400, "File type not allowed. Use PDF, DOC or DOCX.")
  const NoDomainError: HttpError := HttpError(400, "Job domain is required.")

  /**
   The three checks at the top of `analyze_resume`, in order: a file with a
   name, an allowed name, a non-empty domain.  Success yields the file name and
   the domain; each failure is a 400 with the first failing check's message.
   */
  function ValidateUpload(u: Upload): (r: Result<(string, string), HttpError>)
    ensures r.Success? <==>
      u.filename.Some? && AllowedFile(u.filename.value) && u.domain.Some? && u.domain.value != []
    ensures r.Success? ==> r.value == (u.filename.value, u.domain.value)
    ensures r.Failure? ==> r.error.status == 400
    ensures u.filename.None? || u.filename == Some([]) ==> r == Failure(NoFileError)
    ensures u.filename.Some? && u.filename.value != [] && !AllowedFile(u.filename.value) ==> r == Failure(FileTypeError)
    ensures r == Failure(NoDomainError) <==>
      u.filename.Some? && AllowedFile(u.filename.value) && (u.domain.None? || u.domain == Some([]))
  {
    if u.filename.None? || u.filename == Some([]) then Failure(NoFileError)
    else if !AllowedFile(u.filename.value) then Failure(FileTypeError)
    else if u.domain.None? || u.domain == Some([]) then Failure(NoDomainError)
    else Success((u.filename.value, u.domain.value))
  }

  // ---------------------------------------------------------------------------
  // Course and project suggestions
  // ---------------------------------------------------------------------------

  /** The suggestions of one domain. */
  datatype CourseProfile = CourseProfile(courses: seq<string>, projects: seq<string>)

  /** The keys of `domain_profiles`. */
  const ProfileKeys: seq<string> := [
    "software_engineer",
    "data_science",
    "web_development",
    "devops_cloud",
    "ui_ux",
    "product_management",
    "cybersecurity",
    "business_analyst",
    "digital_marketing",
    "hr_talent"]

  const SoftwareEngineerProfile: CourseProfile := CourseProfile(
    ["Data Structures & Algorithms mastery",
     "Clean Code + SOLID principles",
     "Object-Oriented System Design Basics"],
    ["Build a REST API with authentication",
     "Low-level design of a feature (e.g., Library Management, Parking System)"])
  const DataScienceProfile: CourseProfile := CourseProfile(
    ["Machine Learning with Scikit-Learn & TensorFlow",
     "Statistics for Data Science",
     "Data Visualization (Matplotlib / PowerBI)"],
    ["Kaggle classification/regression model with report",
     "Mini project on sentiment analysis or recommendation system"])
  const WebDevelopmentProfile: CourseProfile := CourseProfile(
    ["React or Angular from scratch",
     "Backend APIs with Node/Python",
     "UI/UX fundamentals"],
    ["Full-stack CRUD application with login",
     "Responsive animated portfolio site"])
  const DevopsCloudProfile: CourseProfile := CourseProfile(
    ["Linux + Bash scripting",
     "Docker + Kubernetes basics",
     "CI/CD pipeline fundamentals"],
    ["Deploy an app on AWS/GCP/Azure",
     "CI/CD automation project (GitHub Actions/Jenkins)"])
  const UiUxProfile: CourseProfile := CourseProfile(
    ["Figma / Adobe XD Masterclass",
     "Wireframing + Prototyping workflows",
     "Color theory + typography"],
    ["Design system for a SaaS dashboard",
     "Mobile app prototype with usability testing"])
  const ProductManagementProfile: CourseProfile := CourseProfile(
    ["Agile + Scrum essentials",
     "Roadmap planning & prioritization",
     "Stakeholder communication"],
    ["Create PRD + mockups for a new app",
     "Build product roadmap for a business problem"])
  const CybersecurityProfile: CourseProfile := CourseProfile(
    ["Ethical hacking fundamentals",
     "Network security basics",
     "OWASP Top 10"],
    ["Vulnerability assessment report",
     "Secure API security audit mini project"])
  const BusinessAnalystProfile: CourseProfile := CourseProfile(
    ["SQL fundamentals",
     "Flow diagrams + BRD writing",
     "Requirements lifecycle documentation"],
    ["Case study – requirement analysis for an HR system",
     "Dashboard + reporting implementation"])
  const DigitalMarketingProfile: CourseProfile := CourseProfile(
    ["SEO + Google Analytics",
     "Content + Social media strategy",
     "Paid campaign optimization"],
    ["Run a real/Mock campaign and analyse metrics",
     "SEO analysis + strategy report"])
  const HrTalentProfile: CourseProfile := CourseProfile(
    ["HR communication & interviewing",
     "Screening + JD drafting",
     "Excel + ATS basics"],
    ["Create full hiring pipeline for a role",
     "End-to-end onboarding process workflow"])

  /** `domain_profiles.get(domain)`. */
  function DomainProfile(domain: string): Option<CourseProfile> {
    if domain == "software_engineer" then Some(SoftwareEngineerProfile)
    else if domain == "data_science" then Some(DataScienceProfile)
    else if domain == "web_development" then Some(WebDevelopmentProfile)
    else if domain == "devops_cloud" then Some(DevopsCloudProfile)
    else if domain == "ui_ux" then Some(UiUxProfile)
    else if domain == "product_management" then Some(ProductManagementProfile)
    else if domain == "cybersecurity" then Some(CybersecurityProfile)
    else if domain == "business_analyst" then Some(BusinessAnalystProfile)
    else if domain == "digital_marketing" then Some(DigitalMarketingProfile)
    else if domain == "hr_talent" then Some(HrTalentProfile)
    else None
  }

  /** The suggestions for a domain with no entry. */
  const GenericProfile: CourseProfile := CourseProfile(
    ["Take 1–2 structured online courses focused on this domain."],
    ["Build at least one strong portfolio project in this domain."])

  /** Every listed domain has three courses and two projects. */
  lemma DomainProfileShape(domain: string)
    ensures DomainProfile(domain).Some? ==>
      |DomainProfile(domain).value.courses| == 3 && |DomainProfile(domain).value.projects| == 2
  {
  }

  /** Exactly the listed keys have their own suggestions. */
  lemma DomainProfileKeys(domain: string)
    ensures DomainProfile(domain).Some? <==> domain in ProfileKeys
  {
  }

  /** The suggestions shown: the domain's own, or the generic ones; never empty. */
  function ProfileFor(domain: string): (p: CourseProfile)
    ensures domain in ProfileKeys ==> Some(p) == DomainProfile(domain)
    ensures domain !in ProfileKeys ==> p == GenericProfile
    ensures |p.courses| >= 1 && |p.projects| >= 1
  {
    DomainProfileKeys(domain);
    DomainProfileShape(domain);
    DomainProfile(domain).GetOr(GenericProfile)
  }

  /**
   The suggestion table and the skill table use different keys for two
   domains: the design and HR domains have skills under one name and
   suggestions under another, so neither name gets both.
   */
  lemma ProfileAndSkillKeysDiffer()
    ensures "ui_ux_design" in DomainKeys && "ui_ux_design" !in ProfileKeys
    ensures "hr_talent_acquisition" in DomainKeys && "hr_talent_acquisition" !in ProfileKeys
    ensures "ui_ux" in ProfileKeys && "ui_ux" !in DomainKeys
    ensures "hr_talent" in ProfileKeys && "hr_talent" !in DomainKeys
  {
  }

  /** A design resume filed under the skill table's key gets skills but only the generic suggestions. */
  lemma DesignDomainGetsGenericProfile()
    ensures ProfileFor("ui_ux_design") == GenericProfile
    ensures DomainSkills("ui_ux_design").Some?
  {
    ProfileAndSkillKeysDiffer();
    DomainKeysExact("ui_ux_design");
  }

  /** Filed under the suggestion table's key, the same resume has no skills to find or miss. */
  lemma DesignProfileKeyGetsNoSkills(text: string)
    ensures DetectSkills(text, "ui_ux") == ([], [])
    ensures ProfileFor("ui_ux") != GenericProfile
  {
    ProfileAndSkillKeysDiffer();
    DomainKeysExact("ui_ux");
  }

  // ---------------------------------------------------------------------------
  // Profile type
  // ---------------------------------------------------------------------------

  /** The exception a call with the wrong number of arguments raises. */
  datatype CallError = TypeError

  /**
   Calling `detect_project_based_profile` with the text and `extra` further
   positional arguments: the function takes the text alone, so any extra
   argument raises `TypeError`.
   */
  function CallDetectProfile(text: string, extra: nat): (r: Result<Profile, CallError>)
    ensures r.Success? <==> extra == 0
    ensures r.Success? ==> r.value == DetectProfile(text)
  {
    if extra == 0 then Success(DetectProfile(text)) else Failure(TypeError)
  }

  /**
   The profile type the endpoint ends up with: it first passes the found
   skills too, which always raises `TypeError`, and then retries with the text
   alone, so the profile is always the one detected from the text.
   */
  function ResolveProfileType(text: string): (p: Option<Profile>)
    ensures p == Some(DetectProfile(text))
  {
    match CallDetectProfile(text, 1)
    case Success(_) => assert false; None
    case Failure(_) =>
      match CallDetectProfile(text, 0)
      case Success(p) => Some(p)
      case Failure(_) => None
  }

  // ---------------------------------------------------------------------------
  // Interview questions
  // ---------------------------------------------------------------------------

  const ProjectQuestions: seq<string> := [
    "Explain a complex project you built end-to-end.",
    "What was your biggest architecture decision?"]
  const BalancedQuestion: string := "Explain how you applied theory into projects."
  const TheoryQuestion: string := "You seem theory-strong — how do you plan to build real projects?"

  /**
   The profile questions as the endpoint writes them: the profile type's name
   compared with "project_oriented", "balanced" and "theory_oriented".
   */
  function ProfileQuestionsAsWritten(profileType: Option<string>): (r: seq<string>)
    ensures TheoryQuestion in r <==> profileType == Some("theory_oriented")
    ensures |r| <= 2
  {
    if profileType == Some("project_oriented") then ProjectQuestions
    else if profileType == Some("balanced") then [BalancedQuestion]
    else if profileType == Some("theory_oriented") then [TheoryQuestion]
    else []
  }

  /**
   No profile is named "theory_oriented" (the detector says "theoretical"), so
   as written the theory question is never asked and a theoretical resume
   gets no profile question at all.
   */
  lemma TheoryQuestionNeverAskedAsWritten(text: string)
    ensures TheoryQuestion !in ProfileQuestionsAsWritten(Some(ProfileName(DetectProfile(text))))
    ensures DetectProfile(text) == Theoretical ==>
      ProfileQuestionsAsWritten(Some(ProfileName(DetectProfile(text)))) == []
  {
    assert ProfileName(DetectProfile(text)) != "theory_oriented";
  }

  /** The profile questions keyed by the profile itself: every profile gets its question. */
  function ProfileQuestions(profileType: Option<Profile>): (r: seq<string>)
    ensures |r| > 0 <==> profileType.Some?
    ensures TheoryQuestion in r <==> profileType == Some(Theoretical)
    ensures BalancedQuestion in r <==> profileType == Some(Balanced)
    ensures ProjectQuestions[0] in r <==> profileType == Some(ProjectOriented)
  {
    match profileType
    case None => []
    case Some(ProjectOriented) => ProjectQuestions
    case Some(Balanced) => [BalancedQuestion]
    case Some(Theoretical) => [TheoryQuestion]
  }

  /** The correction changes only the theoretical case. */
  lemma ProfileQuestionsAgreeOtherwise(p: Profile)
    requires p != Theoretical
    ensures ProfileQuestions(Some(p)) == ProfileQuestionsAsWritten(Some(ProfileName(p)))
  {
  }

  const LeadershipQuestion: string := "Describe a time when you led a team."
  const CommunicationQuestion: string := "How do you handle client communication?"
  const BugQuestion: string := "Tell me about a difficult technical bug you solved."

  /** The trait questions: one per recognised trait name, compared case-insensitively. */
  function TraitQuestions(traits: seq<string>): (r: seq<string>)
    ensures |r| <= 3
    ensures LeadershipQuestion in r <==> exists t :: t in traits && Lower(t) == "leadership"
    ensures CommunicationQuestion in r <==> exists t :: t in traits && Lower(t) == "communication"
    ensures BugQuestion in r <==>
      exists t :: t in traits && (Lower(t) == "problem_solving" || Lower(t) == "problem-solving")
  {
    var lowered := set t | t in traits :: Lower(t);
    (if "leadership" in lowered then [LeadershipQuestion] else [])
    + (if "communication" in lowered then [CommunicationQuestion] else [])
    + (if "problem_solving" in lowered || "problem-solving" in lowered then [BugQuestion] else [])
  }

  /** Trait names are already lower case. */
  lemma TraitNameLower(t: Trait)
    ensures Lower(TraitName(t)) == TraitName(t)
  {
    match t
    case Leadership => LowerOfLowercase("leadership");
    case Communication => LowerOfLowercase("communication");
    case ProblemSolving => LowerOfLowercase("problem_solving");
    case Teamwork => LowerOfLowercase("teamwork");
    case SelfLearning => LowerOfLowercase("self_learning");
    case Innovation => LowerOfLowercase("innovation");
  }

  /**
   For a list of traits, each trait question is asked exactly when its trait
   is in the list; the hyphenated spelling the endpoint also accepts never
   occurs.
   */
  lemma TraitQuestionsOfTraits(traits: seq<Trait>)
    ensures var r := TraitQuestions(TraitNames(traits));
      && (LeadershipQuestion in r <==> Leadership in traits)
      && (CommunicationQuestion in r <==> Communication in traits)
      && (BugQuestion in r <==> ProblemSolving in traits)
  {
    var names := TraitNames(traits);
    forall k | 0 <= k < |names| ensures Lower(names[k]) == names[k] && names[k] != "problem-solving" {
      TraitNameLower(traits[k]);
    }
    LowerCaseNames(names, "leadership");
    LowerCaseNames(names, "communication");
    LowerCaseNames(names, "problem_solving");
    LowerCaseNames(names, "problem-solving");
    TraitNamesMembership(traits, Leadership);
    TraitNamesMembership(traits, Communication);
    TraitNamesMembership(traits, ProblemSolving);
  }

  /** In a list of lower-case names, matching after lower-casing is plain membership. */
  lemma LowerCaseNames(names: seq<string>, x: string)
    requires forall k :: 0 <= k < |names| ==> Lower(names[k]) == names[k]
    ensures (exists t :: t in names && Lower(t) == x) <==> x in names
  {
    if x in names {
      var k :| 0 <= k < |names| && names[k] == x;
      assert Lower(names[k]) == x;
    }
  }

  const AppFallbackQuestions: seq<string> := [
    "Tell me about yourself professionally.",
    "What major project are you most proud of?",
    "How do you handle problem solving?"]

  /** The profile type as the endpoint holds it: the detector's name for it, or `None`. */
  function ProfileTypeName(profileType: Option<Profile>): (r: Option<string>)
    ensures r.None? <==> profileType.None?
    ensures profileType.Some? ==> r == Some(ProfileName(profileType.value))
  {
    match profileType
    case None => None
    case Some(p) => Some(ProfileName(p))
  }

  /**
   The question list from its parts: the bank questions of the found skills,
   then the profile questions, then the trait questions, or three generic
   questions when there is nothing to ask.
   */
  function QuestionsFrom(found: seq<string>, profileQs: seq<string>, traitQs: seq<string>): (r: seq<string>)
    ensures |r| > 0
    ensures BankQuestions(found) + profileQs + traitQs != [] ==> r == BankQuestions(found) + profileQs + traitQs
    ensures profileQs == [] && traitQs == []
            && (forall k :: 0 <= k < |found| ==> BankGet(Lower(found[k])).None?) ==>
      r == AppFallbackQuestions
    ensures forall q :: q in profileQs ==> q in r
    ensures forall q :: q in traitQs ==> q in r
  {
    BankQuestionsEmpty(found);
    var asked := BankQuestions(found) + profileQs + traitQs;
    if asked == [] then AppFallbackQuestions else asked
  }

  /**
   The endpoint's question list as written: the profile questions are chosen
   by the profile's name, so a theoretical profile contributes none, and for
   every other profile the list is the corrected one.
   */
  function AssembleQuestions(found: seq<string>, profileType: Option<Profile>, traits: seq<string>): (r: seq<string>)
    ensures |r| > 0
    ensures profileType == Some(Theoretical) ==> r == QuestionsFrom(found, [], TraitQuestions(traits))
    ensures profileType.Some? && profileType != Some(Theoretical) ==>
      r == AssembleQuestionsCorrected(found, profileType, traits)
    ensures forall q :: q in TraitQuestions(traits) ==> q in r
  {
    assert profileType.Some? && profileType != Some(Theoretical) ==>
      ProfileQuestions(profileType) == ProfileQuestionsAsWritten(ProfileTypeName(profileType)) by {
      if profileType.Some? && profileType != Some(Theoretical) {
        ProfileQuestionsAgreeOtherwise(profileType.value);
      }
    }
    QuestionsFrom(found, ProfileQuestionsAsWritten(ProfileTypeName(profileType)), TraitQuestions(traits))
  }

  /**
   The question list with the corrected profile questions: with a profile it
   is never the generic fallback, and it holds the profile's questions.
   */
  function AssembleQuestionsCorrected(found: seq<string>, profileType: Option<Profile>, traits: seq<string>): (r: seq<string>)
    ensures |r| > 0
    ensures profileType.Some? ==>
      r == BankQuestions(found) + ProfileQuestions(profileType) + TraitQuestions(traits)
    ensures forall q :: q in ProfileQuestions(profileType) ==> q in r
    ensures forall q :: q in TraitQuestions(traits) ==> q in r
  {
    QuestionsFrom(found, ProfileQuestions(profileType), TraitQuestions(traits))
  }

  /**
   With no bank question and no trait, a theoretical profile gets the generic
   fallback as written, and only the theory question once corrected.
   */
  lemma TheoreticalAloneFallsBack(found: seq<string>)
    requires forall k :: 0 <= k < |found| ==> BankGet(Lower(found[k])).None?
    ensures AssembleQuestions(found, Some(Theoretical), []) == AppFallbackQuestions
    ensures AssembleQuestionsCorrected(found, Some(Theoretical), []) == [TheoryQuestion]
  {
    BankQuestionsEmpty(found);
    assert TraitQuestions([]) == [];
  }

  // ---------------------------------------------------------------------------
  // The report
  // ---------------------------------------------------------------------------

  /** The analysis record the endpoint stores (identifiers, paths and contact fields left out). */
  datatype Report = Report(
    domain: string,
    resumeText: string,
    score: real,
    selected: bool,
    modelLabel: string,
    probVector: seq<real>,
    matchedSkills: seq<string>,
    missingSkills: seq<string>,
    strengths: seq<string>,
    improvements: seq<string>,
    courses: seq<string>,
    projects: seq<string>,
    questions: seq<string>,
    profileType: Option<Profile>,
    traits: seq<string>)

  /** The texts the endpoint uses when no skill is found or none is missing. */
  const NoMatchingSkills: string := "No domain matching skills detected yet."
  const CoveredAllSkills: string := "You covered all skills for this domain!"

  /** The stages of `analyze_resume` after validation, on the anonymised text. */
  function BuildReport(c: Classifier, text: string, domain: string): (r: Report)
    requires c.Valid()
    ensures r.resumeText == text && r.domain == domain
    ensures (r.matchedSkills, r.missingSkills) == DetectSkills(text, domain)
    ensures r.score == Predict(c, text).score && r.modelLabel == Predict(c, text).outcome
    ensures r.selected <==> r.modelLabel == "selected"
    ensures r.profileType == Some(DetectProfile(text))
    ensures r.traits == TraitNames(InferTraits(text))
    ensures r.courses == ProfileFor(domain).courses && r.projects == ProfileFor(domain).projects
    ensures |r.strengths| == 1 && |r.improvements| == 1 && |r.questions| > 0
    ensures forall s :: s in r.matchedSkills ==> Contains(r.strengths[0], s)
    ensures forall s :: s in r.missingSkills ==> Contains(r.improvements[0], s)
    ensures r.matchedSkills == [] ==> r.strengths == [NoMatchingSkills]
    ensures r.matchedSkills != [] ==> StartsWith(r.strengths[0], StrengthsPrefix)
    ensures r.missingSkills == [] ==> r.improvements == [CoveredAllSkills]
    ensures r.missingSkills != [] ==> StartsWith(r.improvements[0], ImprovementsPrefix)
    ensures r.probVector == Predict(c, text).probs
    ensures r.questions == AssembleQuestions(r.matchedSkills, r.profileType, r.traits)
  {
    var prediction := Predict(c, text);
    var split := DetectSkills(text, domain);
    var found := split.0;
    var missing := split.1;
    var traits := TraitNames(InferTraits(text));
    var profileType := ResolveProfileType(text);
    var suggestions := ProfileFor(domain);
    Report(
      domain, text, prediction.score, prediction.outcome == "selected", prediction.outcome, prediction.probs,
      found, missing,
      SummaryLine(StrengthsPrefix, found, NoMatchingSkills),
      SummaryLine(ImprovementsPrefix, missing, CoveredAllSkills),
      suggestions.courses, suggestions.projects,
      AssembleQuestions(found, profileType, traits),
      profileType, traits)
  }

  /** A blank resume is reported with score 0 and not selected, whatever the domain. */
  lemma BlankResumeRejected(c: Classifier, text: string, domain: string)
    requires c.Valid() && IsBlank(text)
    ensures BuildReport(c, text, domain).score == 0.0
    ensures !BuildReport(c, text, domain).selected
    ensures BuildReport(c, text, domain).modelLabel == "rejected"
  {
  }

  /** The report with the corrected profile questions; every other field is the endpoint's. */
  function BuildReportCorrected(c: Classifier, text: string, domain: string): (r: Report)
    requires c.Valid()
    ensures r.(questions := []) == BuildReport(c, text, domain).(questions := [])
    ensures r.questions == AssembleQuestionsCorrected(r.matchedSkills, r.profileType, r.traits)
  {
    var w := BuildReport(c, text, domain);
    w.(questions := AssembleQuestionsCorrected(w.matchedSkills, w.profileType, w.traits))
  }

  /**
   Once corrected, every resume gets the questions of its profile, and a
   theoretical one the theory question.
   */
  lemma EveryProfileAsked(c: Classifier, text: string, domain: string)
    requires c.Valid()
    ensures var r := BuildReportCorrected(c, text, domain);
      forall q :: q in ProfileQuestions(Some(DetectProfile(text))) ==> q in r.questions
    ensures DetectProfile(text) == Theoretical ==> TheoryQuestion in BuildReportCorrected(c, text, domain).questions
  {
    var r := BuildReportCorrected(c, text, domain);
    assert r.profileType == Some(DetectProfile(text));
  }

  /** The correction changes nothing for a resume that is not theoretical. */
  lemma CorrectionOnlyTheoretical(c: Classifier, text: string, domain: string)
    requires c.Valid() && DetectProfile(text) != Theoretical
    ensures BuildReportCorrected(c, text, domain) == BuildReport(c, text, domain)
  {
    var w := BuildReport(c, text, domain);
    assert w.profileType == Some(DetectProfile(text));
    assert w.questions == AssembleQuestionsCorrected(w.matchedSkills, w.profileType, w.traits);
    assert w.(questions := w.questions) == w;
  }

  /**
   A theoretical resume with no matched bank skill and no inferred trait: as
   written it gets the three generic questions, once corrected only the
   theory question.
   */
  lemma TheoreticalReportQuestions(c: Classifier, text: string, domain: string)
    requires c.Valid() && DetectProfile(text) == Theoretical
    requires DetectSkills(text, domain).0 == [] && InferTraits(text) == []
    ensures BuildReport(c, text, domain).questions == AppFallbackQuestions
    ensures BuildReportCorrected(c, text, domain).questions == [TheoryQuestion]
  {
    var w := BuildReport(c, text, domain);
    assert w.matchedSkills == [] && w.traits == [] && w.profileType == Some(Theoretical);
    TheoreticalAloneFallsBack([]);
  }

  /**
   `analyze_resume()`: a failed validation is returned as is; otherwise the
   extracted text is anonymised and the report is built from it for the
   requested domain.
   */
  function AnalyzeResume(
    c: Classifier, u: Upload, extracted: string,
    redactEmails: string -> string, redactTitles: string -> string): (r: Result<Report, HttpError>)
    requires c.Valid()
    ensures r.Failure? <==> ValidateUpload(u).Failure?
    ensures r.Failure? ==> r.error == ValidateUpload(u).error
    ensures r.Success? ==> u.domain.Some? && r.value.domain == u.domain.value
    ensures r.Success? ==> r.value.resumeText == Anonymize(extracted, redactEmails, redactTitles)
    ensures r.Success? ==> |r.value.questions| > 0
    ensures r.Success? ==> r.value == BuildReport(c, Anonymize(extracted, redactEmails, redactTitles), u.domain.value)
  {
    match ValidateUpload(u)
    case Failure(e) => Failure(e)
    case Success((_, domain)) =>
      Success(BuildReport(c, Anonymize(extracted, redactEmails, redactTitles), domain))
  }
}

=== FILE: wrappers.dfy ===
/** Failure-compatible result types shared by every component of the model. */
module Wrappers {

  /** A value that may be absent: Python's `None` versus a present value. */
  datatype Option<+T> = None | Some(value: T) {

    /** The wrapped value, or `default` when absent (Python's `x or default` on lists). */
    function GetOr(default: T): T {
      match this
      case Some(v) => v
      case None => default
    }
  }

  /** The outcome of a computation that may raise: a value or the error it raised. */
  datatype Result<+R, +E> = Success(value: R) | Failure(error: E)
}
